=== FILE: README.md ===
# A binary search tree and a chained hash map, verified in Dafny

This project models two small in-memory data structures written in
JavaScript and proves what their code promises.

- **`binarySearchTree.js`** exposes a `Tree(array)` factory.
  - It builds a tree of values from a sorted array by recursive midpoint
    partitioning. The model takes the values to be integers.
  - The returned object offers `insert`, `deleteItem`, `find`, `levelOrder`,
    `inOrder`, `preOrder`, `postOrder`, `height`, `depth`, `isBalanced` and
    `rebalance`.
  - These operate on a `root` closure variable.
- **`hashMap.js`** defines the `HashMap` class.
  - It stores entries in an array of buckets, each a list of `[key, value]`
    pairs.
  - It uses a polynomial string hash reduced modulo the bucket count, and
    keeps a `size` counter.
  - When `size / capacity` exceeds the load factor, it doubles the bucket
    array and rehashes every pair.

The files are:

- `wrappers.dfy` holds `Option`, which stands for the `null` that both
  structures return when nothing is found.
- `bst.dfy` (module `BinarySearchTree`) covers the tree.
  - A tree is the value `Tree = Leaf | Node(left, data, right)`.
  - The functions that are recursive in the source are recursive functions
    here: `buildTree`, `findRec`, `height`, `depthRec`, `checkBalance` and
    the traversals.
  - Code that works with loops or a shared accumulator becomes methods with
    loops or accumulator parameters: the `while` walks of `insert` and
    `minValue`, the FIFO queue of `levelOrder`, and the shared `result`
    array of the traversals.
  - `deleteRec` mutates nodes in place. It becomes a recursive method that
    returns the new subtree and calls the `minValue` loop.
  - The object returned by `Tree(array)` is the class `TreeObject`. Its
    `root` field is the closure variable.
    - The model's `InsertValue`, `DeleteItem` and `Rebalance` rebind it.
    - The source's `insert` rebinds it only on an empty tree. Otherwise it
      writes a child link of an existing node.
- `hashmap.dfy` (module `HashMaps`) covers the hash map.
  - The `HashMap` class keeps the bucket array as an `array<seq<Entry<V>>>`,
    together with `size` and the load factor.
  - A ghost `Contents` map is the key/value map the buckets represent. The
    predicate `Table` ties the two together:
    - each key occurs at most once;
    - each key occurs only in bucket `hash(key)`;
    - looking a key up in its bucket gives exactly `Contents`.
  - The demo at the end of `hashMap.js` is replayed as `DemoScenario`, which
    proves the values that the demo's comments announce.

## Model

| member | source | states |
|---|---|---|
| BinarySearchTree.BuildTree | binarySearchTree.js:12-22 | `buildTree(arr, start, end)`: the node at `floor((start+end)/2)` over the two recursively built halves, `null` for an empty range; its contract is carried by `BuildTreeSize`, `BuildTreeInOrder`, `BuildTreeIsBst` and `BuildTreeShape` |
| BinarySearchTree.BuildTreeSize | binarySearchTree.js:12-22 | the built tree has exactly one node per index of the range, so it is `null` exactly when the range is empty |
| BinarySearchTree.BuildTreeInOrder | binarySearchTree.js:12-22 | the in-order sequence of `buildTree(arr, start, end)` is exactly the slice `arr[start..end]`, and an empty range gives `null` |
| BinarySearchTree.BuildTreeIsBst | binarySearchTree.js:12-22 | for a strictly ascending array, the built tree satisfies the BST ordering and its in-order traversal gives the array back |
| BinarySearchTree.BuildTreeShape | binarySearchTree.js:12-22 | splitting at `floor((start+end)/2)` gives a tree whose every node has child heights differing by at most one; its height is the bit length of the range size |
| BinarySearchTree.BuildTreeHeightIsLogarithmic | binarySearchTree.js:12-22 | the built tree's height h satisfies 2^(h-1) <= n < 2^h for n elements, and `checkBalance` does not return -1 on it |
| BinarySearchTree.InsertedCorrect | binarySearchTree.js:24-51 | insertion keeps the BST ordering and makes the value set old ∪ {v}; a present value leaves the tree unchanged; an absent one adds one node |
| BinarySearchTree.Insert | binarySearchTree.js:24-51 | the iterative walk builds the tree with `v` attached as a new leaf where the search for `v` falls off the tree (nothing when `v` is found), keeps the BST ordering, makes the values old ∪ {v}, and on an empty tree makes the new node the root |
| BinarySearchTree.LeftmostIsLeast | binarySearchTree.js:53-59 | the leftmost value belongs to the tree and, in a BST, is below or equal to every value in it |
| BinarySearchTree.MinValue | binarySearchTree.js:53-59 | the loop down the left spine returns the leftmost value, the least value of a non-empty BST subtree |
| BinarySearchTree.BstValuesAreDistinct | binarySearchTree.js:65-88 | a BST holds each value once: its number of distinct values is its number of nodes |
| BinarySearchTree.SuccessorReplacesRoot | binarySearchTree.js:83-85 | in the two-child case, putting the right subtree's least value at the node and removing it from the right subtree keeps the BST ordering and removes exactly the node's old value |
| BinarySearchTree.DeleteRec | binarySearchTree.js:65-88 | deletion keeps the BST ordering, makes the value set old \ {v} and removes exactly one node when `v` is present; an absent `v` leaves the tree unchanged |
| BinarySearchTree.FindRec | binarySearchTree.js:94-106 | a returned subtree is a node holding `v`, and its values are among the tree's; in a BST a node is returned exactly when `v` is in the tree, and `null` otherwise |
| BinarySearchTree.Height | binarySearchTree.js:189-198 | `height(node)`: 0 for `null`, else one more than the taller child; its contract is carried by `HeightBounds`, `BuildTreeShape` and `CheckBalance` |
| BinarySearchTree.HeightBounds | binarySearchTree.js:189-198 | a tree of height h (0 for `null`) has between h and 2^h - 1 nodes |
| BinarySearchTree.DepthRec | binarySearchTree.js:204-224 | the search returns a depth exactly when `v` is in the tree, and the returned depth (counted from `currentDepth`) is a depth at which `v` occurs |
| BinarySearchTree.DepthIsUniqueInBst | binarySearchTree.js:200-224 | in a BST a value occurs at only one depth, so `depth` returns that node's edge count from the root |
| BinarySearchTree.CheckBalance | binarySearchTree.js:230-250 | the result is the height when every node's child heights differ by at most one, and the sentinel -1 otherwise |
| BinarySearchTree.TraverseInOrder | binarySearchTree.js:132-138 | the recursive traversal appends the in-order sequence (left, node, right) to the shared result |
| BinarySearchTree.TraversePreOrder | binarySearchTree.js:152-158 | the recursive traversal appends the pre-order sequence (node, left, right) to the shared result |
| BinarySearchTree.TraversePostOrder | binarySearchTree.js:172-178 | the recursive traversal appends the post-order sequence (left, right, node) to the shared result |
| BinarySearchTree.BstIffInOrderAscending | binarySearchTree.js:129-147 | a tree satisfies the BST ordering if and only if its in-order traversal is strictly ascending |
| BinarySearchTree.TraversalsArePermutations | binarySearchTree.js:129-187 | the in-order, pre-order and post-order sequences are permutations of the tree's values, one entry per node |
| BinarySearchTree.Drain | binarySearchTree.js:114-120 | draining the queue visits every value held by the queued subtrees exactly once (as a multiset), one step per node |
| BinarySearchTree.LevelOrder | binarySearchTree.js:108-127 | the breadth-first result is a permutation of the tree's values, one entry per node, with the root first; an empty tree gives `[]` |
| BinarySearchTree.Rebuilt | binarySearchTree.js:253-254 | rebuilding a root from its in-order sequence keeps the number of nodes; `RebuiltInOrder` and `RebuiltIsBalanced` carry the rest of its contract |
| BinarySearchTree.RebuiltInOrder | binarySearchTree.js:252-256 | rebuilding from the in-order sequence gives back that sequence, which has one entry per node |
| BinarySearchTree.RebuiltIsBalanced | binarySearchTree.js:252-256 | `rebalance` keeps the in-order sequence and the value set, keeps the BST ordering, and yields a tree on which `checkBalance` returns the bit length of the node count, never -1 |
| BinarySearchTree.TreeObject.constructor | binarySearchTree.js:9-10 | `Tree(array)` sets `root` to `buildTree(array)`, which is balanced, has the array as its in-order sequence, and is a BST when the array is strictly ascending |
| BinarySearchTree.TreeObject.InsertValue | binarySearchTree.js:24-51 | `insert` rebinds `root` to the tree with `v` inserted, which is a BST holding old ∪ {v} when the old tree was a BST |
| BinarySearchTree.TreeObject.DeleteItem | binarySearchTree.js:61-63 | `deleteItem` rebinds `root` to the result of `deleteRec`: unchanged when `v` is absent; a BST holding old \ {v} when the old tree was a BST |
| BinarySearchTree.TreeObject.Find | binarySearchTree.js:90-92 | `find` is `findRec` applied to the current root: it returns a node holding `v`; in a BST it returns one exactly when `v` is present |
| BinarySearchTree.TreeObject.Depth | binarySearchTree.js:200-202 | `depth` returns a depth exactly when `v` is in the tree, and `v` occurs at that depth below the root |
| BinarySearchTree.TreeObject.InOrderList | binarySearchTree.js:129-147 | `inOrder()` returns the in-order sequence, a permutation of the values, which is strictly ascending exactly when the tree is a BST |
| BinarySearchTree.TreeObject.PreOrderList | binarySearchTree.js:149-167 | `preOrder()` returns the pre-order sequence, a permutation of the values with the root first |
| BinarySearchTree.TreeObject.PostOrderList | binarySearchTree.js:169-187 | `postOrder()` returns the post-order sequence, a permutation of the values with the root last |
| BinarySearchTree.TreeObject.LevelOrderList | binarySearchTree.js:108-127 | `levelOrder()` returns a permutation of the values with the root first |
| BinarySearchTree.TreeObject.IsBalanced | binarySearchTree.js:226-228 | `isBalanced()` is true exactly when every node's child heights differ by at most one |
| BinarySearchTree.TreeObject.Rebalance | binarySearchTree.js:252-256 | `rebalance` rebinds `root` to a tree with the same in-order sequence on which `checkBalance` does not return -1, keeps the BST ordering, and returns the new root |
| HashMaps.HashCode | hashMap.js:11-19 | the hash of any key lies in `[0, n)` for `n > 0` buckets |
| HashMaps.HashIsPolynomialMod | hashMap.js:11-19 | reducing modulo `n` after every character gives the same result as reducing the whole polynomial `sum code_i * 31^(len-1-i)` once |
| HashMaps.HashMap.Hash | hashMap.js:11-19 | the accumulator loop computes `HashCode(key, capacity)`, an index within the bucket array |
| HashMaps.IndexOfKey | hashMap.js:25-31 | the scan returns the first position holding `key`, or -1 when no pair of the bucket has that key; what it finds agrees with the bucket lookup |
| HashMaps.BucketOverwrite | hashMap.js:28 | overwriting a pair in place keeps the bucket's keys distinct and changes only that key's value |
| HashMaps.BucketAppend | hashMap.js:33 | pushing a pair with a new key keeps the keys distinct and adds only that key |
| HashMaps.BucketSplice | hashMap.js:84 | splicing out a pair keeps the keys distinct and removes only that key |
| HashMaps.TableOverwrite | hashMap.js:25-30 | overwriting an existing key's pair in its bucket keeps the table invariant for the updated map and leaves the number of pairs unchanged |
| HashMaps.TableAppend | hashMap.js:33-34 | appending a pair for an absent key keeps the table invariant for the extended map and adds exactly one pair |
| HashMaps.TableRemove | hashMap.js:81-86 | splicing out a present key keeps the table invariant for the map without that key and removes exactly one pair |
| HashMaps.TableEntries | hashMap.js:131-139 | the concatenation of all buckets has distinct keys and holds exactly the pairs of the represented map |
| HashMaps.TableKeys | hashMap.js:111-119 | the keys of all buckets in order are pairwise distinct and are exactly the keys of the represented map |
| HashMaps.TableValues | hashMap.js:121-129 | every stored value appears among the buckets' values, and every one of those is the value of some key |
| HashMaps.GrowthRestoresRatio | hashMap.js:36-38 | if the ratio held before one more pair was added, doubling the capacity restores `size <= loadFactor * capacity` |
| HashMaps.HashMap.constructor | hashMap.js:2-6 | a new map has `initialCapacity` empty buckets, size 0, an empty key/value map and the given load factor |
| HashMaps.HashMap.Put | hashMap.js:21-34 | the bucket scan overwrites the key's pair or appends a new one; the map becomes old[key := value] and `size` grows by one exactly when the key was new |
| HashMaps.HashMap.Set | hashMap.js:21-39 | `set` maps `key` to `value` and leaves every other key unchanged; `size` grows by one exactly for a new key; the capacity doubles exactly when a new key pushes `size / capacity` above the load factor; afterwards `size <= loadFactor * capacity` |
| HashMaps.HashMap.Get | hashMap.js:47-58 | `get` returns the key's value, or `null` when the key is absent |
| HashMaps.HashMap.Has | hashMap.js:63-74 | `has` is true exactly when the key is present |
| HashMaps.HashMap.Remove | hashMap.js:77-90 | `remove` returns true exactly when the key was present, deletes only that key, decrements `size` in that case, and otherwise leaves the buckets unchanged |
| HashMaps.HashMap.Length | hashMap.js:102-104 | `length()` is the number of keys in the map |
| HashMaps.HashMap.Clear | hashMap.js:106-109 | `clear` keeps the capacity, empties the map and sets `size` to 0 |
| HashMaps.HashMap.Keys | hashMap.js:111-119 | `keys()` lists the buckets' keys in bucket order: one per pair, pairwise distinct, exactly the map's keys |
| HashMaps.HashMap.Values | hashMap.js:121-129 | `values()` lists the buckets' values in bucket order: one per pair, each the value of some key, and covering every key's value |
| HashMaps.HashMap.Entries | hashMap.js:131-139 | `entries()` concatenates the buckets in index order: one pair per key, exactly the map's pairs |
| HashMaps.HashMap.Resize | hashMap.js:141-151 | `resize` allocates `newCapacity` buckets and rehashes every pair; the key/value map and `size` are preserved |
| HashMaps.HashMap.Rehash | hashMap.js:146-150 | re-inserting one old bucket keeps the table well formed, keeps the keys already present, and adds every key of the bucket with its old value |
| HashMaps.DemoKeysAreNew | hashMap.js:156-175 | each of the demo's first twelve keys is new when it is set, `apple` and `banana` are present when overwritten, and `moon` is new |
| HashMaps.DemoStage1 | hashMap.js:157-159 | three new keys are stored at capacity 16 without growth |
| HashMaps.DemoStage2 | hashMap.js:160-162 | three more new keys are stored at capacity 16 without growth |
| HashMaps.DemoStage3 | hashMap.js:163-165 | three more new keys are stored at capacity 16 without growth |
| HashMaps.DemoStage4 | hashMap.js:166-168 | the twelfth key still fits at capacity 16 (12/16 is not above 0.75) |
| HashMaps.DemoGrowth | hashMap.js:170-175 | the two overwrites keep the size at 12, and inserting `moon` (13/16 > 0.75) doubles the capacity to 32 |
| HashMaps.DemoQueries | hashMap.js:177-180 | the demo reads `green` for `apple`, finds `dog`, removes `frog` and then has length 12 |
| HashMaps.DemoScenario | hashMap.js:156-186 | the whole demo ends with capacity 32 before `clear`, yields the announced outputs, has length 0 after `clear`, and then returns empty keys, values and entries |

## Left out

- The optional `callback` argument of the four traversals (for example
  binarySearchTree.js:122-124) is not modelled. It calls arbitrary foreign
  code for its side effects, so the traversals only return their sequences.
- The `console.log` output of the hash map demo (hashMap.js:177-186) is not
  modelled. The values it prints are the out-parameters of `DemoScenario`.
- The load factor is not a floating-point number. It is the rational
  `loadNum / loadDen`, and the growth test `size / capacity > loadFactor`
  becomes `size * loadDen > loadNum * capacity`.
  - The demo uses the default 3/4.
  - The default arguments (capacity 16, load factor 0.75) are passed
    explicitly.
- HashMaps.HashMap.constructor requires a positive initial capacity, because
  capacity 0 would make `hash` compute `% 0`. It also requires
  `loadDen <= 2 * loadNum * initialCapacity`. This means that twice the
  capacity times the load factor is at least 1, so that a single doubling
  restores the load ratio.
- HashMaps.HashMap.Resize requires that the current size fits the new
  capacity under the load factor. It then rehashes through `Put` (the body of
  `set` without the growth test), and `Rehash` proves that the growth test
  could not fire there.
  - The source's `resize` calls `set` itself and is only ever called from
    `set` with the doubled capacity, where this holds.
  - A resize nested inside a resize is therefore not modelled.
- Keys are Dafny strings, and a character's code is its `as int` value. This
  matches `charCodeAt` for characters inside the Basic Multilingual Plane.
  For other characters JavaScript uses two UTF-16 code units, and that case
  is not modelled.
- HashMaps.HashMap.Entries returns copies of the pairs.
  - The source returns the buckets' own `[key, value]` arrays
    (hashMap.js:134-135).
  - A caller's write through one of them changes the stored pair. Writing
    the key can leave a pair outside bucket `hash(key)`.
  - Such writes, and the aliasing behind them, are not modelled.
- `Contents` is a ghost map. It is what the buckets represent, not a field of
  the JavaScript object.
- `get` returns `Option`. In JavaScript a stored `null` value cannot be told
  apart from a missing key; `Get` can tell them apart.
- The BST is modelled as an immutable value, and `insert`, `deleteRec` and
  `rebalance` produce new trees.
  - The source mutates nodes in place: `currentNode.left = ...`,
    `node.data = ...`, `node.right = ...`.
  - Aliasing between the tree and a node handed out by `find` or returned
    by `rebalance` (binarySearchTree.js:255) is therefore not modelled.
  - Such a node is modelled as the subtree's value at the time of the call.
    A later write through the tree does not show in it, and a write through
    it does not change the tree.
- BinarySearchTree.Drain states only that the visited values are those of the
  queued subtrees, as a multiset, one per node. It does not state the
  breadth-first order in which the loop visits them.
- BinarySearchTree.LevelOrder states that the result is a permutation of the
  values with the root first. It does not state the breadth-first order
  itself.
- BinarySearchTree.TreeObject.LevelOrderList states the same as `LevelOrder`,
  and not the breadth-first order either.
- BinarySearchTree.TreeObject.Depth states that the returned depth is one at
  which the value occurs.
  - In a tree that violates the BST ordering and holds a value several times,
    the source returns the first occurrence in pre-order. That choice is not
    stated.
  - In a BST the depth is unique (`DepthIsUniqueInBst`).
- BinarySearchTree.TreeObject.Find returns a node holding `v`. That the node
  is `v` exactly when `v` is in the tree is proved only for BSTs, which is
  the only case in which the source's search is meant to work.
- The `root` property of the returned object (binarySearchTree.js:259) is a
  snapshot of the root node taken at construction. The model has a single
  `root`, the closure variable. The snapshot's behaviour is not modelled.
  - The snapshot goes stale after `rebalance`.
  - It also goes stale after an `insert` into an empty tree, and after a
    `deleteItem` that removes a root node with fewer than two children.
  - Until the snapshot has gone stale, every other insert and delete changes
    nodes that it shares, so it shows them.
  - After `rebalance`, or after an insert into an empty tree, it shares no
    node with the live tree.
  - After a delete of a root with fewer than two children, the old root node
    still links to the new root. The snapshot then shows later changes below
    that one stale node.
- Values are modelled as integers, a total order.
  - The source is untyped. It compares any JavaScript values with `<` and `>`,
    and `depthRec` compares with `===`.
  - For NaN, or for values of mixed types, the source behaves differently.
    On a non-empty tree:
    - `insert(NaN)` takes the "already present" branch and does nothing.
    - `find(NaN)` returns the root node.
    - `deleteItem(NaN)` deletes the root's value.
    - `depth(NaN)` returns `null`.
  - None of this is modelled.
- The `node` parameter of `isBalanced` (binarySearchTree.js:226) is unused
  and is left out.
- Integer overflow in `hash` does not arise, because the value is reduced
  after every character. The model uses unbounded `nat`.

=== FILE: bst.dfy ===
/** A binary search tree over integers, built from a sorted array by midpoint
    partitioning and maintained by insert, delete and rebalance.

    Nodes own their children exclusively and have no parent pointers, so a
    node graph is an algebraic value: `Tree`. The object returned by the
    `Tree` factory keeps the current root in a closure variable; here it is
    the class `TreeObject` with one field `root`. */
module BinarySearchTree {
  import opened Wrappers

  /** `Leaf` is the `null` child; `Node(left, data, right)` is a node made by `Node(data)`. */
  datatype Tree = Leaf | Node(left: Tree, data: int, right: Tree)

  // ---------------------------------------------------------------------
  // Specification vocabulary
  // ---------------------------------------------------------------------

  /** The values stored in a tree, with multiplicity. */
  function Elems(t: Tree): multiset<int> {
    match t
    case Leaf => multiset{}
    case Node(l, d, r) => Elems(l) + multiset{d} + Elems(r)
  }

  /** The set of values stored in a tree. */
  function Values(t: Tree): set<int> {
    match t
    case Leaf => {}
    case Node(l, d, r) => Values(l) + {d} + Values(r)
  }

  /** The number of nodes. */
  function Size(t: Tree): nat {
    match t
    case Leaf => 0
    case Node(l, _, r) => Size(l) + 1 + Size(r)
  }

  /** The search-tree ordering: every value in a left subtree is below the
      node's value and every value in a right subtree above it (so no value
      occurs twice). */
  ghost predicate IsBst(t: Tree) {
    match t
    case Leaf => true
    case Node(l, d, r) =>
      IsBst(l) && IsBst(r) &&
      (forall x :: x in Values(l) ==> x < d) &&
      (forall x :: x in Values(r) ==> d < x)
  }

  predicate StrictlyAscending(s: seq<int>) {
    forall i, j :: 0 <= i < j < |s| ==> s[i] < s[j]
  }

  function Pow2(k: nat): (p: nat)
    ensures p >= 1
  {
    if k == 0 then 1 else 2 * Pow2(k - 1)
  }

  /** AVL balance: at every node the two subtree heights differ by at most one. */
  ghost predicate IsHeightBalanced(t: Tree) {
    match t
    case Leaf => true
    case Node(l, _, r) =>
      IsHeightBalanced(l) && IsHeightBalanced(r) &&
      -1 <= Height(l) - Height(r) <= 1
  }

  /** `v` is stored at a node `k` edges below the root of `t`. */
  ghost predicate OccursAt(t: Tree, v: int, k: nat) {
    match t
    case Leaf => false
    case Node(l, d, r) =>
      (k == 0 && d == v) || (k > 0 && (OccursAt(l, v, k - 1) || OccursAt(r, v, k - 1)))
  }

  // ---------------------------------------------------------------------
  // Traversals
  // ---------------------------------------------------------------------

  /** Left, self, right. */
  function InOrder(t: Tree): seq<int> {
    match t
    case Leaf => []
    case Node(l, d, r) => InOrder(l) + [d] + InOrder(r)
  }

  /** Self, left, right. */
  function PreOrder(t: Tree): seq<int> {
    match t
    case Leaf => []
    case Node(l, d, r) => [d] + PreOrder(l) + PreOrder(r)
  }

  /** Left, right, self. */
  function PostOrder(t: Tree): seq<int> {
    match t
    case Leaf => []
    case Node(l, d, r) => PostOrder(l) + PostOrder(r) + [d]
  }

  /** The `traverse` helper of `inOrder()`: pushes the values of `t` onto
      `result`, left subtree, then the node, then the right subtree. */
  method TraverseInOrder(t: Tree, result0: seq<int>) returns (result: seq<int>)
    ensures result == result0 + InOrder(t)
    decreases t
  {
    result := result0;
    if t != Leaf {
      result := TraverseInOrder(t.left, result);
      result := result + [t.data];
      result := TraverseInOrder(t.right, result);
    }
  }

  /** The `traverse` helper of `preOrder()`: the node before its subtrees. */
  method TraversePreOrder(t: Tree, result0: seq<int>) returns (result: seq<int>)
    ensures result == result0 + PreOrder(t)
    decreases t
  {
    result := result0;
    if t != Leaf {
      result := result + [t.data];
      result := TraversePreOrder(t.left, result);
      result := TraversePreOrder(t.right, result);
    }
  }

  /** The `traverse` helper of `postOrder()`: the node after its subtrees. */
  method TraversePostOrder(t: Tree, result0: seq<int>) returns (result: seq<int>)
    ensures result == result0 + PostOrder(t)
    decreases t
  {
    result := result0;
    if t != Leaf {
      result := TraversePostOrder(t.left, result);
      result := TraversePostOrder(t.right, result);
      result := result + [t.data];
    }
  }

  /** The values of a queue of subtrees, and its number of nodes. */
  function QueueElems(q: seq<Tree>): multiset<int> {
    if q == [] then multiset{} else Elems(q[0]) + QueueElems(q[1..])
  }

  function QueueSize(q: seq<Tree>): nat {
    if q == [] then 0 else Size(q[0]) + QueueSize(q[1..])
  }

  /** No `null` is ever enqueued. */
  predicate NoEmpty(q: seq<Tree>) {
    q == [] || (q[0] != Leaf && NoEmpty(q[1..]))
  }

  lemma {:induction false} QueueConcat(a: seq<Tree>, b: seq<Tree>)
    ensures QueueElems(a + b) == QueueElems(a) + QueueElems(b)
    ensures QueueSize(a + b) == QueueSize(a) + QueueSize(b)
    ensures NoEmpty(a + b) <==> NoEmpty(a) && NoEmpty(b)
  {
    if a == [] {
      assert a + b == b;
    } else {
      assert (a + b)[1..] == a[1..] + b;
      QueueConcat(a[1..], b);
    }
  }

  /** `if (u) queue.push(u)`: only non-empty subtrees join the queue. */
  function Enqueue(q: seq<Tree>, u: Tree): seq<Tree> {
    if u != Leaf then q + [u] else q
  }

  lemma EnqueueContent(q: seq<Tree>, u: Tree)
    ensures QueueElems(Enqueue(q, u)) == QueueElems(q) + Elems(u)
    ensures QueueSize(Enqueue(q, u)) == QueueSize(q) + Size(u)
    ensures NoEmpty(Enqueue(q, u)) == NoEmpty(q)
  {
    if u != Leaf {
      QueueConcat(q, [u]);
      assert [u][1..] == [];
    }
  }

  /** Visiting the front node of the queue and enqueueing its non-empty
      children moves exactly that node's own value from the queue to the
      visited values. */
  lemma VisitFront(visited: seq<int>, queue: seq<Tree>)
    requires queue != [] && NoEmpty(queue)
    ensures queue[0].Node?
    ensures var next := Enqueue(Enqueue(queue[1..], queue[0].left), queue[0].right);
      NoEmpty(next) &&
      multiset(visited + [queue[0].data]) + QueueElems(next) == multiset(visited) + QueueElems(queue) &&
      QueueSize(queue) == 1 + QueueSize(next)
  {
    var node := queue[0];
    var rest := queue[1..];
    assert QueueElems(queue) == Elems(node) + QueueElems(rest);
    EnqueueContent(rest, node.left);
    EnqueueContent(Enqueue(rest, node.left), node.right);
    assert multiset(visited + [node.data]) == multiset(visited) + multiset{node.data};
  }

  /** Visits the trees of `queue` breadth-first: each step takes the front
      tree, records its value and queues its non-empty children. */
  method Drain(queue0: seq<Tree>) returns (visited: seq<int>)
    requires NoEmpty(queue0)
    ensures multiset(visited) == QueueElems(queue0)
    ensures |visited| == QueueSize(queue0)
  {
    visited := [];
    var queue := queue0;
    while |queue| > 0
      invariant NoEmpty(queue)
      invariant multiset(visited) + QueueElems(queue) == QueueElems(queue0)
      invariant |visited| + QueueSize(queue) == QueueSize(queue0)
      decreases QueueSize(queue)
    {
      VisitFront(visited, queue);
      var node := queue[0];
      var next := queue[1..];
      next := Enqueue(next, node.left);
      next := Enqueue(next, node.right);
      visited := visited + [node.data];
      queue := next;
    }
    assert QueueElems(queue) == multiset{};
  }

  /** The queue holding the root's children carries every value of the tree
      except the root's own. */
  lemma VisitRoot(t: Tree)
    requires t.Node?
    ensures var children := Enqueue(Enqueue([], t.left), t.right);
      NoEmpty(children) &&
      multiset{t.data} + QueueElems(children) == Elems(t) &&
      1 + QueueSize(children) == Size(t)
  {
    assert [t][1..] == [];
    assert QueueElems([t]) == Elems(t) + QueueElems([]);
    assert [] + [t.data] == [t.data];
    VisitFront([], [t]);
  }

  lemma LevelOrderResult(t: Tree, children: seq<Tree>, rest: seq<int>)
    requires t.Node?
    requires multiset{t.data} + QueueElems(children) == Elems(t)
    requires 1 + QueueSize(children) == Size(t)
    requires multiset(rest) == QueueElems(children)
    requires |rest| == QueueSize(children)
    ensures multiset([t.data] + rest) == Elems(t)
    ensures |[t.data] + rest| == Size(t)
  {
    assert multiset([t.data] + rest) == multiset{t.data} + multiset(rest);
  }

  /** `levelOrder()`: breadth-first, draining a FIFO queue of non-empty
      subtrees front to back and enqueueing each visited node's children,
      left first. The root comes first, and every value of the tree is
      visited exactly once. */
  method LevelOrder(t: Tree) returns (result: seq<int>)
    ensures multiset(result) == Elems(t)
    ensures |result| == Size(t)
    ensures t.Node? ==> result[0] == t.data
  {
    if t == Leaf {
      return [];
    }
    var children := Enqueue(Enqueue([], t.left), t.right);
    VisitRoot(t);
    var rest := Drain(children);
    result := [t.data] + rest;
    LevelOrderResult(t, children, rest);
  }

  lemma {:induction false} AscendingConcat(a: seq<int>, d: int, b: seq<int>)
    ensures StrictlyAscending(a + [d] + b) <==>
      StrictlyAscending(a) && StrictlyAscending(b) &&
      (forall x :: x in a ==> x < d) && (forall x :: x in b ==> d < x)
  {
    var s := a + [d] + b;
    if StrictlyAscending(s) {
      forall i, j | 0 <= i < j < |a| ensures a[i] < a[j] {
        assert s[i] == a[i] && s[j] == a[j];
      }
      forall i, j | 0 <= i < j < |b| ensures b[i] < b[j] {
        assert s[|a| + 1 + i] == b[i] && s[|a| + 1 + j] == b[j];
      }
      forall x | x in a ensures x < d {
        var i :| 0 <= i < |a| && a[i] == x;
        assert s[i] == x && s[|a|] == d;
      }
      forall x | x in b ensures d < x {
        var i :| 0 <= i < |b| && b[i] == x;
        assert s[|a| + 1 + i] == x && s[|a|] == d;
      }
    }
    if StrictlyAscending(a) && StrictlyAscending(b) &&
      (forall x :: x in a ==> x < d) && (forall x :: x in b ==> d < x)
    {
      forall i, j | 0 <= i < j < |s| ensures s[i] < s[j] {
        if j < |a| {
          assert s[i] == a[i] && s[j] == a[j];
        } else if j == |a| {
          assert s[i] == a[i] && a[i] in a;
        } else if i > |a| {
          assert s[i] == b[i - |a| - 1] && s[j] == b[j - |a| - 1];
        } else if i == |a| {
          assert s[j] == b[j - |a| - 1] && b[j - |a| - 1] in b;
        } else {
          assert s[i] == a[i] && a[i] in a;
          assert s[j] == b[j - |a| - 1] && b[j - |a| - 1] in b;
        }
      }
    }
  }

  /** The ordering invariant holds exactly when the in-order traversal is
      strictly ascending. */
  lemma {:induction false} BstIffInOrderAscending(t: Tree)
    ensures IsBst(t) <==> StrictlyAscending(InOrder(t))
  {
    match t
    case Leaf =>
    case Node(l, d, r) =>
      BstIffInOrderAscending(l);
      BstIffInOrderAscending(r);
      AscendingConcat(InOrder(l), d, InOrder(r));
      InOrderValues(l);
      InOrderValues(r);
  }

  /** The in-order traversal lists exactly the values of the tree. */
  lemma {:induction false} InOrderValues(t: Tree)
    ensures forall x :: x in InOrder(t) <==> x in Values(t)
  {
    if t.Node? {
      InOrderValues(t.left);
      InOrderValues(t.right);
    }
  }

  /** The in-order traversal has one entry per node. */
  lemma {:induction false} InOrderLength(t: Tree)
    ensures |InOrder(t)| == Size(t)
  {
    if t.Node? {
      InOrderLength(t.left);
      InOrderLength(t.right);
    }
  }

  lemma {:induction false} InOrderIsPermutation(t: Tree)
    ensures multiset(InOrder(t)) == Elems(t)
  {
    if t.Node? {
      InOrderIsPermutation(t.left);
      InOrderIsPermutation(t.right);
    }
  }

  lemma {:induction false} PreOrderIsPermutation(t: Tree)
    ensures multiset(PreOrder(t)) == Elems(t)
  {
    if t.Node? {
      PreOrderIsPermutation(t.left);
      PreOrderIsPermutation(t.right);
    }
  }

  lemma {:induction false} PostOrderIsPermutation(t: Tree)
    ensures multiset(PostOrder(t)) == Elems(t)
  {
    if t.Node? {
      PostOrderIsPermutation(t.left);
      PostOrderIsPermutation(t.right);
    }
  }

  lemma {:induction false} SizeIsElemsCount(t: Tree)
    ensures |Elems(t)| == Size(t)
  {
    if t.Node? {
      SizeIsElemsCount(t.left);
      SizeIsElemsCount(t.right);
    }
  }

  /** The three depth-first traversals each list every value of the tree
      exactly as often as it occurs, so they are permutations of one another
      and each has one entry per node. */
  lemma TraversalsArePermutations(t: Tree)
    ensures multiset(InOrder(t)) == multiset(PreOrder(t)) == multiset(PostOrder(t)) == Elems(t)
    ensures |InOrder(t)| == |PreOrder(t)| == |PostOrder(t)| == Size(t)
  {
    InOrderIsPermutation(t);
    PreOrderIsPermutation(t);
    PostOrderIsPermutation(t);
    SizeIsElemsCount(t);
  }

  // ---------------------------------------------------------------------
  // Construction
  // ---------------------------------------------------------------------

  /** `buildTree(arr, start, end)`: the node at `floor((start+end)/2)` with the
      two halves of the index range `[start, end]` built recursively; an empty
      range gives `null`. */
  function BuildTree(arr: seq<int>, start: int, end: int): Tree
    requires 0 <= start <= end + 1 <= |arr|
    decreases end - start
  {
    if start > end then Leaf
    else
      var middle := (start + end) / 2;
      Node(BuildTree(arr, start, middle - 1), arr[middle], BuildTree(arr, middle + 1, end))
  }

  /** A built tree has one node per index of its range, so an empty range
      gives `null` and a non-empty one a node. */
  lemma {:induction false} BuildTreeSize(arr: seq<int>, start: int, end: int)
    requires 0 <= start <= end + 1 <= |arr|
    ensures Size(BuildTree(arr, start, end)) == end - start + 1
    ensures BuildTree(arr, start, end) == Leaf <==> start > end
    decreases end - start
  {
    if start <= end {
      var middle := (start + end) / 2;
      BuildTreeSize(arr, start, middle - 1);
      BuildTreeSize(arr, middle + 1, end);
      BuildTreeNode(arr, start, end);
      assert BuildTree(arr, start, end).Node?;
    } else {
      assert BuildTree(arr, start, end) == Leaf;
    }
  }

  /** In-order traversal of a built tree gives back the index range it was built from. */
  lemma {:induction false} BuildTreeInOrder(arr: seq<int>, start: int, end: int)
    requires 0 <= start <= end + 1 <= |arr|
    ensures InOrder(BuildTree(arr, start, end)) == arr[start..end + 1]
    decreases end - start
  {
    if start <= end {
      var middle := (start + end) / 2;
      var left, right := BuildTree(arr, start, middle - 1), BuildTree(arr, middle + 1, end);
      BuildTreeInOrder(arr, start, middle - 1);
      BuildTreeInOrder(arr, middle + 1, end);
      InOrderJoin(left, right, arr, start, middle, end);
      BuildTreeNode(arr, start, end);
    }
  }

  /** One level of `buildTree`: a node whose subtrees list the two halves of
      a slice around its middle element lists the whole slice. */
  lemma InOrderJoin(left: Tree, right: Tree, arr: seq<int>, start: int, middle: int, end: int)
    requires 0 <= start <= middle <= end < |arr|
    requires InOrder(left) == arr[start..middle]
    requires InOrder(right) == arr[middle + 1..end + 1]
    ensures InOrder(Node(left, arr[middle], right)) == arr[start..end + 1]
  {
    SliceSplit(arr, start, middle, end + 1);
  }

  /** A non-empty range builds a node holding its middle element. */
  lemma BuildTreeNode(arr: seq<int>, start: int, end: int)
    requires 0 <= start <= end < |arr|
    ensures var middle := (start + end) / 2;
      BuildTree(arr, start, end) ==
      Node(BuildTree(arr, start, middle - 1), arr[middle], BuildTree(arr, middle + 1, end))
  {
  }

  lemma SliceSplit(arr: seq<int>, i: int, m: int, j: int)
    requires 0 <= i <= m < j <= |arr|
    ensures arr[i..j] == arr[i..m] + [arr[m]] + arr[m + 1..j]
  {
  }

  /** Building from a strictly ascending array yields a search tree that
      lists the array back in order. */
  lemma BuildTreeIsBst(arr: seq<int>)
    requires StrictlyAscending(arr)
    ensures InOrder(BuildTree(arr, 0, |arr| - 1)) == arr
    ensures IsBst(BuildTree(arr, 0, |arr| - 1))
  {
    BuildTreeInOrder(arr, 0, |arr| - 1);
    assert arr[0..|arr|] == arr;
    BstIffInOrderAscending(BuildTree(arr, 0, |arr| - 1));
  }

  /** Number of binary digits of `n`: `ceil(log2(n + 1))`. */
  function Bits(n: nat): nat {
    if n == 0 then 0 else 1 + Bits(n / 2)
  }

  lemma {:induction false} BitsStep(k: nat)
    ensures Bits(k) <= Bits(k + 1) <= Bits(k) + 1
  {
    if k > 0 {
      if (k + 1) / 2 != k / 2 {
        BitsStep(k / 2);
      }
    }
  }

  /** `Bits(n)` is the least `h` with `n < 2^h`. */
  lemma {:induction false} BitsIsLog(n: nat)
    ensures n < Pow2(Bits(n))
    ensures n > 0 ==> Pow2(Bits(n) - 1) <= n
  {
    if n > 0 {
      BitsIsLog(n / 2);
    }
  }

  /** Splitting `n > 0` values around the middle leaves halves whose
      heights differ by at most one, the larger one giving `Bits(n) - 1`. */
  lemma {:induction false} HalvesBits(n: nat)
    requires n > 0
    ensures Bits((n - 1) / 2) <= Bits(n / 2) <= Bits((n - 1) / 2) + 1
    ensures Bits(n) == Bits(n / 2) + 1
  {
    var q := n / 2;
    assert Bits(n) == Bits(q) + 1;
    if n % 2 == 0 {
      assert (n - 1) / 2 == q - 1;
      BitsStep(q - 1);
    } else {
      assert (n - 1) / 2 == q;
    }
  }

  /** The built tree has the least possible height and is balanced. */
  lemma {:induction false} BuildTreeShape(arr: seq<int>, start: int, end: int)
    requires 0 <= start <= end + 1 <= |arr|
    ensures Height(BuildTree(arr, start, end)) == Bits(end - start + 1)
    ensures IsHeightBalanced(BuildTree(arr, start, end))
    decreases end - start
  {
    if start <= end {
      var middle := (start + end) / 2;
      var l, r := BuildTree(arr, start, middle - 1), BuildTree(arr, middle + 1, end);
      BuildTreeShape(arr, start, middle - 1);
      BuildTreeShape(arr, middle + 1, end);
      MiddleSplits(start, end);
      ShapeJoin(l, arr[middle], r, end - start + 1, middle - 1 - start + 1, end - (middle + 1) + 1);
      BuildTreeNode(arr, start, end);
    }
  }

  /** The middle index leaves at most one more value to its right than to its left. */
  lemma MiddleSplits(start: int, end: int)
    requires start <= end
    ensures var middle := (start + end) / 2;
      middle - start <= end - middle <= middle - start + 1
  {
  }

  /** One level of `buildTree`: halves of `n > 0` values built with the least
      height and balanced give a node of the least height, balanced. */
  lemma ShapeJoin(l: Tree, d: int, r: Tree, n: nat, nl: nat, nr: nat)
    requires n == nl + 1 + nr && nl <= nr <= nl + 1
    requires Height(l) == Bits(nl) && IsHeightBalanced(l)
    requires Height(r) == Bits(nr) && IsHeightBalanced(r)
    ensures Height(Node(l, d, r)) == Bits(n)
    ensures IsHeightBalanced(Node(l, d, r))
  {
    assert nl == (n - 1) / 2 && nr == n / 2;
    HalvesBits(n);
  }

  /** `height <= ceil(log2(n + 1))` for a tree built from `n` values, and
      `checkBalance` reports it balanced. */
  lemma BuildTreeHeightIsLogarithmic(arr: seq<int>)
    ensures var h := Height(BuildTree(arr, 0, |arr| - 1));
      |arr| < Pow2(h) && (|arr| > 0 ==> Pow2(h - 1) <= |arr|)
    ensures CheckBalance(BuildTree(arr, 0, |arr| - 1)) != -1
  {
    BuildTreeShape(arr, 0, |arr| - 1);
    BitsIsLog(|arr|);
  }

  // ---------------------------------------------------------------------
  // Insertion
  // ---------------------------------------------------------------------

  /** Recursive reference definition of insertion: descend by comparison,
      hang a new leaf at the first empty slot, stop on an equal value. */
  function Inserted(t: Tree, v: int): Tree {
    match t
    case Leaf => Node(Leaf, v, Leaf)
    case Node(l, d, r) =>
      if v < d then Node(Inserted(l, v), d, r)
      else if v > d then Node(l, d, Inserted(r, v))
      else t
  }

  /** Insertion keeps the ordering and adds exactly the one value: a tree
      that already holds it is unchanged, otherwise it gains one node. */
  lemma {:induction false} InsertedCorrect(t: Tree, v: int)
    requires IsBst(t)
    ensures IsBst(Inserted(t, v))
    ensures Values(Inserted(t, v)) == Values(t) + {v}
    ensures v in Values(t) ==> Inserted(t, v) == t
    ensures v !in Values(t) ==> Size(Inserted(t, v)) == Size(t) + 1
  {
    match t
    case Leaf =>
    case Node(l, d, r) =>
      if v < d {
        InsertedCorrect(l, v);
        assert v !in Values(r);
      } else if v > d {
        InsertedCorrect(r, v);
        assert v !in Values(l);
      }
  }

  /** One step of the descent, remembered so the path can be rebuilt: the
      walk went into the left child (keeping `data` and `right`) or into the
      right child (keeping `left` and `data`). */
  datatype Frame = WentLeft(data: int, right: Tree) | WentRight(left: Tree, data: int)

  /** Re-attach a subtree below the path, innermost frame first. */
  function Plug(path: seq<Frame>, t: Tree): Tree
    decreases |path|
  {
    if path == [] then t
    else
      var up := match path[0]
        case WentLeft(d, r) => Node(t, d, r)
        case WentRight(l, d) => Node(l, d, t);
      Plug(path[1..], up)
  }

  /** `insert(value)`: an empty tree gets a single node; otherwise walk down
      from the root until an empty child slot on the correct side receives
      the new node, or an equal value ends the walk with no change. */
  method Insert(t: Tree, v: int) returns (r: Tree)
    ensures r == Inserted(t, v)
    ensures IsBst(t) ==> IsBst(r)
    ensures IsBst(t) ==> Values(r) == Values(t) + {v}
    ensures IsBst(t) && v in Values(t) ==> r == t
    ensures IsBst(t) && v !in Values(t) ==> Size(r) == Size(t) + 1
    ensures t == Leaf ==> r == Node(Leaf, v, Leaf)
  {
    if t == Leaf {
      r := Node(Leaf, v, Leaf);
      return;
    }
    var current := t;
    var path: seq<Frame> := [];
    var inserted := false;
    r := t;
    while !inserted
      invariant current.Node?
      invariant !inserted ==> Plug(path, Inserted(current, v)) == Inserted(t, v)
      invariant inserted ==> r == Inserted(t, v)
      decreases Size(current), !inserted
    {
      if v < current.data {
        if current.left == Leaf {
          r := Plug(path, Node(Node(Leaf, v, Leaf), current.data, current.right));
          inserted := true;
        } else {
          assert Plug([WentLeft(current.data, current.right)] + path, Inserted(current.left, v))
              == Plug(path, Inserted(current, v));
          path := [WentLeft(current.data, current.right)] + path;
          current := current.left;
        }
      } else if v > current.data {
        if current.right == Leaf {
          r := Plug(path, Node(current.left, current.data, Node(Leaf, v, Leaf)));
          inserted := true;
        } else {
          assert Plug([WentRight(current.left, current.data)] + path, Inserted(current.right, v))
              == Plug(path, Inserted(current, v));
          path := [WentRight(current.left, current.data)] + path;
          current := current.right;
        }
      } else {
        // The value is already in the tree.
        r := Plug(path, current);
        inserted := true;
      }
    }
    if IsBst(t) {
      InsertedCorrect(t, v);
    }
  }

  // ---------------------------------------------------------------------
  // Minimum and deletion
  // ---------------------------------------------------------------------

  /** The value of the leftmost node. */
  function Leftmost(t: Tree): int
    requires t.Node?
  {
    if t.left == Leaf then t.data else Leftmost(t.left)
  }

  lemma {:induction false} LeftmostIsLeast(t: Tree)
    requires t.Node?
    ensures Leftmost(t) in Values(t)
    ensures IsBst(t) ==> forall x :: x in Values(t) ==> Leftmost(t) <= x
  {
    if t.left != Leaf {
      LeftmostIsLeast(t.left);
    }
  }

  /** `minValue(node)`: follow left children to the end. */
  method MinValue(t: Tree) returns (m: int)
    requires t.Node?
    ensures m == Leftmost(t)
    ensures m in Values(t)
    ensures IsBst(t) ==> forall x :: x in Values(t) ==> m <= x
  {
    var current := t;
    while current.left != Leaf
      invariant current.Node?
      invariant Leftmost(current) == Leftmost(t)
      decreases current
    {
      current := current.left;
    }
    m := current.data;
    LeftmostIsLeast(t);
  }

  /** In a search tree no value occurs twice: there are as many distinct
      values as nodes. */
  lemma {:induction false} BstValuesAreDistinct(t: Tree)
    requires IsBst(t)
    ensures |Values(t)| == Size(t)
  {
    match t
    case Leaf =>
    case Node(l, d, r) =>
      BstValuesAreDistinct(l);
      BstValuesAreDistinct(r);
      SeparatedUnionSize(Values(l), d, Values(r));
  }

  /** Sets lying strictly on either side of `d` are disjoint and miss `d`. */
  lemma SeparatedUnionSize(a: set<int>, d: int, b: set<int>)
    requires forall x :: x in a ==> x < d
    requires forall x :: x in b ==> d < x
    ensures |a + {d} + b| == |a| + 1 + |b|
  {
    assert a !! b by {
      forall x | x in a ensures x !in b { }
    }
    assert |a + b| == |a| + |b|;
    assert a + {d} + b == (a + b) + {d};
  }

  /** `deleteRec(node, value)`: descend by comparison; a found node with one
      missing child is replaced by the other child; a found node with two
      children takes the least value of its right subtree (the in-order
      successor), which is then deleted from the right subtree. */
  method DeleteRec(t: Tree, v: int) returns (r: Tree)
    ensures v !in Values(t) ==> r == t
    ensures IsBst(t) ==> IsBst(r)
    ensures IsBst(t) ==> Values(r) == Values(t) - {v}
    ensures IsBst(t) && v in Values(t) ==> Size(r) == Size(t) - 1
    decreases t
  {
    if t == Leaf {
      return Leaf;
    }
    if v < t.data {
      var left := DeleteRec(t.left, v);
      r := Node(left, t.data, t.right);
      if IsBst(t) {
        assert v !in Values(t.right);
      }
    } else if v > t.data {
      var right := DeleteRec(t.right, v);
      r := Node(t.left, t.data, right);
      if IsBst(t) {
        assert v !in Values(t.left);
      }
    } else {
      if t.left == Leaf {
        return t.right;
      } else if t.right == Leaf {
        return t.left;
      }
      var successor := MinValue(t.right);
      var right := DeleteRec(t.right, successor);
      r := Node(t.left, successor, right);
      if IsBst(t) {
        SuccessorReplacesRoot(t, successor, right);
      }
    }
  }

  /** Replacing the root value of a search tree by the least value of its
      right subtree, and deleting that value there, removes the root value
      and keeps the ordering. */
  lemma SuccessorReplacesRoot(t: Tree, successor: int, right: Tree)
    requires IsBst(t) && t.Node? && t.right.Node?
    requires successor in Values(t.right)
    requires forall x :: x in Values(t.right) ==> successor <= x
    requires IsBst(right) && Values(right) == Values(t.right) - {successor}
    ensures IsBst(Node(t.left, successor, right))
    ensures Values(Node(t.left, successor, right)) == Values(t) - {t.data}
  {
    assert t.data !in Values(t.left) && t.data !in Values(t.right);
  }

  // ---------------------------------------------------------------------
  // Queries
  // ---------------------------------------------------------------------

  /** `findRec(node, value)`: the subtree rooted at the node holding `value`. */
  function FindRec(t: Tree, v: int): (r: Option<Tree>)
    ensures r.Some? ==> r.value.Node? && r.value.data == v && Values(r.value) <= Values(t)
    ensures IsBst(t) ==> (r.Some? <==> v in Values(t))
  {
    match t
    case Leaf => None
    case Node(l, d, rt) =>
      if v < d then FindRec(l, v)
      else if v > d then FindRec(rt, v)
      else Some(t)
  }

  /** `height(node)`: 0 for an empty tree, else one more than the taller child. */
  function Height(t: Tree): nat {
    match t
    case Leaf => 0
    case Node(l, _, r) =>
      var hl := Height(l);
      var hr := Height(r);
      if hl < hr then hr + 1 else hl + 1
  }

  /** A tree of height `h` has at least `h` and fewer than `2^h` nodes. */
  lemma {:induction false} HeightBounds(t: Tree)
    ensures Height(t) <= Size(t) < Pow2(Height(t))
  {
    match t
    case Leaf =>
    case Node(l, _, r) =>
      HeightBounds(l);
      HeightBounds(r);
      NodeBounds(Height(l), Height(r), Size(l), Size(r), Height(t));
  }

  /** One node on top of subtrees of heights `hl`, `hr` and sizes `sl`, `sr`
      within the bounds gives a tree within the bounds. */
  lemma NodeBounds(hl: nat, hr: nat, sl: nat, sr: nat, h: nat)
    requires hl <= sl < Pow2(hl) && hr <= sr < Pow2(hr)
    requires h == (if hl < hr then hr else hl) + 1
    ensures h <= sl + sr + 1 < Pow2(h)
  {
    Pow2Monotone(hl, h - 1);
    Pow2Monotone(hr, h - 1);
    assert Pow2(h) == 2 * Pow2(h - 1);
  }

  lemma {:induction false} Pow2Monotone(a: nat, b: nat)
    requires a <= b
    ensures Pow2(a) <= Pow2(b)
    decreases b
  {
    if a < b {
      Pow2Monotone(a, b - 1);
    }
  }

  /** `depthRec(node, value, currentDepth)`: depth-first, self then left then
      right; the first node holding `value` gives its depth. */
  function DepthRec(t: Tree, v: int, currentDepth: nat): (r: Option<nat>)
    ensures r.Some? <==> v in Values(t)
    ensures r.Some? ==> currentDepth <= r.value && OccursAt(t, v, r.value - currentDepth)
  {
    match t
    case Leaf => None
    case Node(l, d, rt) =>
      if d == v then Some(currentDepth)
      else
        var leftDepth := DepthRec(l, v, currentDepth + 1);
        if leftDepth.Some? then leftDepth
        else
          var rightDepth := DepthRec(rt, v, currentDepth + 1);
          if rightDepth.Some? then rightDepth
          else None
  }

  lemma {:induction false} OccursAtIsValue(t: Tree, v: int, k: nat)
    requires OccursAt(t, v, k)
    ensures v in Values(t)
  {
    match t
    case Node(l, d, r) =>
      if k > 0 {
        if OccursAt(l, v, k - 1) {
          OccursAtIsValue(l, v, k - 1);
        } else {
          OccursAtIsValue(r, v, k - 1);
        }
      }
  }

  /** In a search tree a value sits at one depth only, so `depth` is the
      edge count of the unique root-to-node path. */
  lemma {:induction false} DepthIsUniqueInBst(t: Tree, v: int, k1: nat, k2: nat)
    requires IsBst(t) && OccursAt(t, v, k1) && OccursAt(t, v, k2)
    ensures k1 == k2
  {
    match t
    case Node(l, d, r) =>
      if k1 == 0 || k2 == 0 {
        if k1 != k2 {
          var k := if k1 == 0 then k2 else k1;
          if OccursAt(l, v, k - 1) {
            OccursAtIsValue(l, v, k - 1);
          } else {
            OccursAtIsValue(r, v, k - 1);
          }
        }
      } else {
        if OccursAt(l, v, k1 - 1) && OccursAt(l, v, k2 - 1) {
          DepthIsUniqueInBst(l, v, k1 - 1, k2 - 1);
        } else if OccursAt(r, v, k1 - 1) && OccursAt(r, v, k2 - 1) {
          DepthIsUniqueInBst(r, v, k1 - 1, k2 - 1);
        } else if OccursAt(l, v, k1 - 1) {
          OccursAtIsValue(l, v, k1 - 1);
          OccursAtIsValue(r, v, k2 - 1);
        } else {
          OccursAtIsValue(r, v, k1 - 1);
          OccursAtIsValue(l, v, k2 - 1);
        }
      }
  }

  /** `checkBalance(node)`: the height, computed bottom-up, or the sentinel -1
      as soon as some node's children differ in height by more than one. */
  function CheckBalance(t: Tree): (r: int)
    ensures r == if IsHeightBalanced(t) then Height(t) else -1
  {
    match t
    case Leaf => 0
    case Node(l, _, rt) =>
      var leftHeight := CheckBalance(l);
      if leftHeight == -1 then -1
      else
        var rightHeight := CheckBalance(rt);
        if rightHeight == -1 then -1
        else if leftHeight - rightHeight > 1 || rightHeight - leftHeight > 1 then -1
        else if leftHeight < rightHeight then rightHeight + 1
        else leftHeight + 1
  }

  /** `rebalance()` on a given root: rebuild from the in-order sequence,
      which keeps the number of nodes. */
  function Rebuilt(t: Tree): (b: Tree)
    ensures Size(b) == Size(t)
  {
    var arr := InOrder(t);
    InOrderLength(t);
    BuildTreeSize(arr, 0, |arr| - 1);
    BuildTree(arr, 0, |arr| - 1)
  }

  /** Rebuilding keeps the in-order sequence, which has one entry per node. */
  lemma {:induction false} RebuiltInOrder(t: Tree)
    ensures InOrder(Rebuilt(t)) == InOrder(t)
    ensures |InOrder(t)| == Size(t)
  {
    var arr := InOrder(t);
    BuildTreeInOrder(arr, 0, |arr| - 1);
    assert arr[0..|arr|] == arr;
    InOrderLength(t);
  }

  /** Rebalancing keeps the in-order sequence (hence the values and the
      search-tree ordering) and yields a balanced tree of least height. */
  lemma {:induction false} RebuiltIsBalanced(t: Tree)
    ensures InOrder(Rebuilt(t)) == InOrder(t)
    ensures Values(Rebuilt(t)) == Values(t)
    ensures IsBst(t) ==> IsBst(Rebuilt(t))
    ensures CheckBalance(Rebuilt(t)) == Bits(Size(t))
  {
    RebuiltInOrder(t);
    var b := Rebuilt(t);
    SameInOrderSameValues(t, b);
    BstIffInOrderAscending(t);
    BstIffInOrderAscending(b);
    var arr := InOrder(t);
    BuildTreeShape(arr, 0, |arr| - 1);
    assert |arr| - 1 - 0 + 1 == Size(t);
  }

  lemma SameInOrderSameValues(a: Tree, b: Tree)
    requires InOrder(a) == InOrder(b)
    ensures Values(a) == Values(b)
  {
    InOrderValues(a);
    InOrderValues(b);
    forall x ensures x in Values(b) <==> x in Values(a) {
      assert x in Values(b) <==> x in InOrder(b);
    }
  }

  // ---------------------------------------------------------------------
  // The tree object
  // ---------------------------------------------------------------------

  /** The object returned by `Tree(array)`. Its `root` is the closure variable
      that the operations read and update; the traversals and `height` are the
      functions above applied to it. */
  class TreeObject {
    var root: Tree

    /** `Tree(array)`: build from the array (meant to be sorted and duplicate-free). */
    constructor (arr: seq<int>)
      ensures root == BuildTree(arr, 0, |arr| - 1)
      ensures InOrder(root) == arr
      ensures CheckBalance(root) != -1
      ensures StrictlyAscending(arr) ==> IsBst(root)
    {
      root := BuildTree(arr, 0, |arr| - 1);
      BuildTreeInOrder(arr, 0, |arr| - 1);
      assert arr[0..|arr|] == arr;
      BuildTreeHeightIsLogarithmic(arr);
      if StrictlyAscending(arr) {
        BuildTreeIsBst(arr);
      }
    }

    method InsertValue(v: int)
      modifies this
      ensures root == Inserted(old(root), v)
      ensures IsBst(old(root)) ==> IsBst(root) && Values(root) == Values(old(root)) + {v}
    {
      root := Insert(root, v);
    }

    /** `deleteItem(value)`. */
    method DeleteItem(v: int)
      modifies this
      ensures v !in Values(old(root)) ==> root == old(root)
      ensures IsBst(old(root)) ==> IsBst(root) && Values(root) == Values(old(root)) - {v}
    {
      root := DeleteRec(root, v);
    }

    /** `find(value)`. */
    method Find(v: int) returns (r: Option<Tree>)
      ensures r == FindRec(root, v)
      ensures r.Some? ==> r.value.Node? && r.value.data == v && Values(r.value) <= Values(root)
      ensures IsBst(root) ==> (r.Some? <==> v in Values(root))
    {
      r := FindRec(root, v);
    }

    /** `depth(value)`. */
    method Depth(v: int) returns (r: Option<nat>)
      ensures r.Some? <==> v in Values(root)
      ensures r.Some? ==> OccursAt(root, v, r.value)
    {
      r := DepthRec(root, v, 0);
    }

    /** `inOrder()`: every value once, and ascending exactly when the tree is
        a search tree. */
    method InOrderList() returns (result: seq<int>)
      ensures result == InOrder(root)
      ensures multiset(result) == Elems(root) && |result| == Size(root)
      ensures IsBst(root) <==> StrictlyAscending(result)
    {
      result := TraverseInOrder(root, []);
      TraversalsArePermutations(root);
      BstIffInOrderAscending(root);
    }

    /** `preOrder()`: every value once, the root first. */
    method PreOrderList() returns (result: seq<int>)
      ensures result == PreOrder(root)
      ensures multiset(result) == Elems(root) && |result| == Size(root)
      ensures root.Node? ==> result[0] == root.data
    {
      result := TraversePreOrder(root, []);
      TraversalsArePermutations(root);
    }

    /** `postOrder()`: every value once, the root last. */
    method PostOrderList() returns (result: seq<int>)
      ensures result == PostOrder(root)
      ensures multiset(result) == Elems(root) && |result| == Size(root)
      ensures root.Node? ==> result[|result| - 1] == root.data
    {
      result := TraversePostOrder(root, []);
      TraversalsArePermutations(root);
    }

    /** `levelOrder()` on the current root. */
    method LevelOrderList() returns (result: seq<int>)
      ensures multiset(result) == Elems(root) && |result| == Size(root)
      ensures root.Node? ==> result[0] == root.data
    {
      result := LevelOrder(root);
    }

    /** `isBalanced()`. */
    method IsBalanced() returns (b: bool)
      ensures b == IsHeightBalanced(root)
    {
      b := CheckBalance(root) != -1;
    }

    /** `rebalance()`: returns the new root. */
    method Rebalance() returns (r: Tree)
      modifies this
      ensures r == root
      ensures InOrder(root) == InOrder(old(root))
      ensures IsBst(old(root)) ==> IsBst(root)
      ensures CheckBalance(root) != -1
    {
      RebuiltIsBalanced(root);
      root := Rebuilt(root);
      r := root;
    }
  }
}

=== FILE: hashmap.dfy ===
/** The chained hash map of `hashMap.js`: an array of buckets, each a list of
    `[key, value]` pairs, a `size` counter, a polynomial string hash reduced
    modulo the bucket count, and doubling with a full rehash once
    `size / capacity` exceeds the load factor.

    The load factor is the rational `loadNum / loadDen` (3/4 by default), and
    the growth test `size / capacity > loadFactor` is `size * loadDen >
    loadNum * capacity`. Keys are strings; a character's code is its `as int`. */
module HashMaps {
  import opened Wrappers

  /** One `[key, value]` pair of a bucket. */
  datatype Entry<V> = Entry(key: string, value: V)

  /** `primeNumber` of `hash`. */
  const Prime: nat := 31

  // ---------------------------------------------------------------------
  // The hash
  // ---------------------------------------------------------------------

  /** `hash(key)` for `n` buckets: fold `(31 * h + code) % n` over the key's
      characters, starting from 0. */
  function HashCode(key: string, n: nat): (h: nat)
    requires n > 0
    ensures h < n
  {
    if key == [] then 0
    else (Prime * HashCode(key[..|key| - 1], n) + key[|key| - 1] as int) % n
  }

  /** The unreduced polynomial `sum code(key[i]) * 31^(|key|-1-i)`. */
  function Poly(key: string): nat {
    if key == [] then 0 else Prime * Poly(key[..|key| - 1]) + key[|key| - 1] as int
  }

  lemma MulAtLeast(k: int, n: int)
    requires k >= 1 && n > 0
    ensures k * n >= n
  {
    assert k * n == (k - 1) * n + n;
    assert (k - 1) * n >= 0;
  }

  /** The remainder is determined by any quotient/remainder decomposition. */
  lemma ModUnique(y: int, a: int, r: int, n: int)
    requires n > 0 && 0 <= r < n && y == a * n + r
    ensures y % n == r
  {
    var d, m := y / n, y % n;
    assert y == d * n + m;
    var k := a - d;
    assert k * n == m - r;
    if k > 0 {
      MulAtLeast(k, n);
    } else if k < 0 {
      MulAtLeast(-k, n);
    }
  }

  lemma ScaleMod(a: nat, c: nat, n: nat)
    requires n > 0
    ensures (Prime * (a % n) + c) % n == (Prime * a + c) % n
  {
    var q := a / n;
    assert a == q * n + a % n;
    var t := Prime * (a % n) + c;
    var q2 := t / n;
    assert t == q2 * n + t % n;
    assert Prime * a + c == (Prime * q + q2) * n + t % n;
    ModUnique(Prime * a + c, Prime * q + q2, t % n, n);
  }

  /** Reducing after every character gives the same bucket as reducing the
      whole polynomial once: the incremental `%` only bounds the numbers. */
  lemma {:induction false} HashIsPolynomialMod(key: string, n: nat)
    requires n > 0
    ensures HashCode(key, n) == Poly(key) % n
    decreases |key|
  {
    if key != [] {
      var prefix := key[..|key| - 1];
      HashIsPolynomialMod(prefix, n);
      ScaleMod(Poly(prefix), key[|key| - 1] as int, n);
    }
  }

  // ---------------------------------------------------------------------
  // Buckets
  // ---------------------------------------------------------------------

  /** No two pairs of the list share a key. */
  predicate DistinctKeys<V>(b: seq<Entry<V>>) {
    forall i, j :: 0 <= i < j < |b| ==> b[i].key != b[j].key
  }

  /** What the linear scan of a bucket finds for `k`: the value of the first
      pair with key `k`, or `None`. */
  function Lookup<V>(b: seq<Entry<V>>, k: string): Option<V> {
    if b == [] then None
    else if b[0].key == k then Some(b[0].value)
    else Lookup(b[1..], k)
  }

  lemma {:induction false} LookupFirst<V>(b: seq<Entry<V>>, k: string, i: nat)
    requires i < |b| && b[i].key == k
    requires forall j :: 0 <= j < i ==> b[j].key != k
    ensures Lookup(b, k) == Some(b[i].value)
  {
    if i > 0 {
      LookupFirst(b[1..], k, i - 1);
    }
  }

  lemma {:induction false} LookupAbsent<V>(b: seq<Entry<V>>, k: string)
    requires forall j :: 0 <= j < |b| ==> b[j].key != k
    ensures Lookup(b, k) == None
  {
    if b != [] {
      LookupAbsent(b[1..], k);
    }
  }

  /** A found value comes from a pair of the bucket. */
  lemma {:induction false} LookupFound<V>(b: seq<Entry<V>>, k: string)
    requires Lookup(b, k).Some?
    ensures Entry(k, Lookup(b, k).value) in b
  {
    if b[0].key != k {
      LookupFound(b[1..], k);
    }
  }

  /** In a bucket with distinct keys, the scan finds the one pair with key `k`. */
  lemma LookupAt<V>(b: seq<Entry<V>>, k: string, i: nat)
    requires DistinctKeys(b) && i < |b| && b[i].key == k
    ensures Lookup(b, k) == Some(b[i].value)
  {
    LookupFirst(b, k, i);
  }

  /** The scan loop written out in `set` (hashMap.js lines 25-31), `get`
      (51-56), `has` (67-72) and `remove` (81-88): the index of the first pair
      holding the key, or -1 when no pair has it. */
  method IndexOfKey<V>(b: seq<Entry<V>>, key: string) returns (i: int)
    ensures -1 <= i < |b|
    ensures i >= 0 ==> b[i].key == key && forall j :: 0 <= j < i ==> b[j].key != key
    ensures i < 0 ==> forall j :: 0 <= j < |b| ==> b[j].key != key
    ensures Lookup(b, key) == if i < 0 then None else Some(b[i].value)
  {
    i := 0;
    while i < |b|
      invariant 0 <= i <= |b|
      invariant forall j :: 0 <= j < i ==> b[j].key != key
    {
      if b[i].key == key {
        LookupFirst(b, key, i);
        return;
      }
      i := i + 1;
    }
    LookupAbsent(b, key);
    i := -1;
  }

  // ---------------------------------------------------------------------
  // The table as a whole
  // ---------------------------------------------------------------------

  /** Every pair of bucket `i` has a key that hashes to `i` for `n` buckets. */
  ghost predicate Placed<V>(bs: seq<seq<Entry<V>>>, n: nat)
    requires n > 0
  {
    forall i, e :: 0 <= i < |bs| && e in bs[i] ==> HashCode(e.key, n) == i
  }

  /** The buckets `bs` represent the map `m`: each key sits only in bucket
      `hash(key)`, at most once, and the scan of that bucket finds `m`'s value. */
  ghost predicate Table<V>(bs: seq<seq<Entry<V>>>, m: map<string, V>) {
    |bs| > 0 &&
    Placed(bs, |bs|) &&
    (forall i :: 0 <= i < |bs| ==> DistinctKeys(bs[i])) &&
    (forall k {:trigger Lookup(bs[HashCode(k, |bs|)], k)} :: Lookup(bs[HashCode(k, |bs|)], k) == if k in m then Some(m[k]) else None)
  }

  /** All pairs, bucket after bucket: the order of `keys`, `values` and `entries`. */
  function Flatten<V>(bs: seq<seq<Entry<V>>>): seq<Entry<V>> {
    if bs == [] then [] else Flatten(bs[..|bs| - 1]) + bs[|bs| - 1]
  }

  function KeysOf<V>(es: seq<Entry<V>>): (ks: seq<string>)
    ensures |ks| == |es|
    ensures forall i :: 0 <= i < |es| ==> ks[i] == es[i].key
  {
    if es == [] then [] else KeysOf(es[..|es| - 1]) + [es[|es| - 1].key]
  }

  function ValuesOf<V>(es: seq<Entry<V>>): (vs: seq<V>)
    ensures |vs| == |es|
    ensures forall i :: 0 <= i < |es| ==> vs[i] == es[i].value
  {
    if es == [] then [] else ValuesOf(es[..|es| - 1]) + [es[|es| - 1].value]
  }

  lemma {:induction false} FlattenMember<V>(bs: seq<seq<Entry<V>>>, e: Entry<V>)
    ensures e in Flatten(bs) <==> exists i :: 0 <= i < |bs| && e in bs[i]
    decreases |bs|
  {
    if bs != [] {
      var n := |bs| - 1;
      FlattenMember(bs[..n], e);
      if e in Flatten(bs) && e !in bs[n] {
        var i :| 0 <= i < n && e in bs[..n][i];
        assert e in bs[i];
      }
      if exists i :: 0 <= i < |bs| && e in bs[i] {
        var i :| 0 <= i < |bs| && e in bs[i];
        if i < n {
          assert e in bs[..n][i];
        }
      }
    }
  }

  lemma {:induction false} FlattenUpdate<V>(bs: seq<seq<Entry<V>>>, h: nat, b: seq<Entry<V>>)
    requires h < |bs|
    ensures |Flatten(bs[h := b])| + |bs[h]| == |Flatten(bs)| + |b|
    decreases |bs|
  {
    var n := |bs| - 1;
    if h == n {
      assert bs[h := b][..n] == bs[..n];
    } else {
      assert bs[h := b][..n] == bs[..n][h := b];
      FlattenUpdate(bs[..n], h, b);
    }
  }

  lemma {:induction false} FlattenEmpty<V>(bs: seq<seq<Entry<V>>>)
    requires forall i :: 0 <= i < |bs| ==> bs[i] == []
    ensures Flatten(bs) == []
    decreases |bs|
  {
    if bs != [] {
      FlattenEmpty(bs[..|bs| - 1]);
    }
  }

  /** Pairs placed by their hash, distinct within each bucket, are distinct
      across the whole table. */
  lemma {:induction false} FlattenDistinct<V>(bs: seq<seq<Entry<V>>>, n: nat)
    requires n > 0 && Placed(bs, n)
    requires forall i :: 0 <= i < |bs| ==> DistinctKeys(bs[i])
    ensures DistinctKeys(Flatten(bs))
    decreases |bs|
  {
    if bs != [] {
      var last := |bs| - 1;
      var pre := bs[..last];
      assert Placed(pre, n);
      FlattenDistinct(pre, n);
      var f: seq<Entry<V>> := Flatten(pre);
      var b: seq<Entry<V>> := bs[last];
      forall p, q | 0 <= p < q < |f + b|
        ensures (f + b)[p].key != (f + b)[q].key
      {
        if q >= |f| && p < |f| {
          FlattenMember(pre, f[p]);
          assert f[p] in f;
          assert b[q - |f|] in bs[last];
        }
      }
    }
  }

  /** A pair of the table agrees with the map. */
  lemma TableEntryAgrees<V>(bs: seq<seq<Entry<V>>>, m: map<string, V>, i: nat, e: Entry<V>)
    requires Table(bs, m) && i < |bs| && e in bs[i]
    ensures e.key in m && m[e.key] == e.value
  {
    var j :| 0 <= j < |bs[i]| && bs[i][j] == e;
    LookupAt(bs[i], e.key, j);
  }

  /** A subset is no larger than its superset. */
  lemma {:induction false} SubsetSize<T>(a: set<T>, b: set<T>)
    requires a <= b
    ensures |a| <= |b|
  {
    if a != {} {
      var x :| x in a;
      SubsetSize(a - {x}, b - {x});
    }
  }

  /** The pairs of the table, bucket after bucket, are the map's pairs, each
      once. */
  lemma TableEntries<V>(bs: seq<seq<Entry<V>>>, m: map<string, V>)
    requires Table(bs, m)
    ensures DistinctKeys(Flatten(bs))
    ensures forall e :: e in Flatten(bs) <==> e.key in m && m[e.key] == e.value
  {
    FlattenDistinct(bs, |bs|);
    forall e ensures e in Flatten(bs) <==> e.key in m && m[e.key] == e.value {
      FlattenMember(bs, e);
      if e in Flatten(bs) {
        var i :| 0 <= i < |bs| && e in bs[i];
        TableEntryAgrees(bs, m, i, e);
      }
      if e.key in m && m[e.key] == e.value {
        var h := HashCode(e.key, |bs|);
        LookupFound(bs[h], e.key);
      }
    }
  }

  /** The keys listed bucket by bucket are exactly the map's keys, each once. */
  lemma TableKeys<V>(bs: seq<seq<Entry<V>>>, m: map<string, V>)
    requires Table(bs, m)
    ensures forall i, j :: 0 <= i < j < |KeysOf(Flatten(bs))| ==> KeysOf(Flatten(bs))[i] != KeysOf(Flatten(bs))[j]
    ensures forall k :: k in KeysOf(Flatten(bs)) <==> k in m
  {
    var es := Flatten(bs);
    var ks := KeysOf(es);
    TableEntries(bs, m);
    forall k ensures k in ks <==> k in m {
      if k in m {
        var p :| 0 <= p < |es| && es[p] == Entry(k, m[k]);
        assert ks[p] == k;
      }
      if k in ks {
        var p :| 0 <= p < |ks| && ks[p] == k;
        assert es[p] in es;
      }
    }
  }

  /** The values listed bucket by bucket are exactly the map's values. */
  lemma TableValues<V>(bs: seq<seq<Entry<V>>>, m: map<string, V>)
    requires Table(bs, m)
    ensures forall k :: k in m ==> m[k] in ValuesOf(Flatten(bs))
    ensures forall i :: 0 <= i < |ValuesOf(Flatten(bs))| ==>
              exists k :: k in m && m[k] == ValuesOf(Flatten(bs))[i]
  {
    var es := Flatten(bs);
    var vs := ValuesOf(es);
    TableEntries(bs, m);
    forall k | k in m ensures m[k] in vs {
      var p :| 0 <= p < |es| && es[p] == Entry(k, m[k]);
      assert vs[p] == m[k];
    }
    forall i | 0 <= i < |vs| ensures exists k :: k in m && m[k] == vs[i] {
      assert es[i] in es;
    }
  }

  /** Empty buckets represent the empty map. */
  lemma TableEmpty<V>(bs: seq<seq<Entry<V>>>)
    requires |bs| > 0 && forall i :: 0 <= i < |bs| ==> bs[i] == []
    ensures Table(bs, map[])
    ensures Flatten(bs) == []
  {
    FlattenEmpty(bs);
  }

  /** Replacing bucket `h` by `b` yields a table of `m'` when `b` holds
      exactly the keys of `m'` that hash to `h`, and `m'` agrees with `m`
      on every other key. */
  lemma TableUpdate<V>(bs: seq<seq<Entry<V>>>, m: map<string, V>, h: nat, b: seq<Entry<V>>, m': map<string, V>)
    requires Table(bs, m) && h < |bs|
    requires DistinctKeys(b)
    requires forall e :: e in b ==> HashCode(e.key, |bs|) == h
    requires forall k :: HashCode(k, |bs|) == h ==> Lookup(b, k) == if k in m' then Some(m'[k]) else None
    requires forall k :: HashCode(k, |bs|) != h ==> (k in m' <==> k in m) && (k in m ==> m'[k] == m[k])
    ensures Table(bs[h := b], m')
  {
    var bs' := bs[h := b];
    forall k ensures Lookup(bs'[HashCode(k, |bs'|)], k) == if k in m' then Some(m'[k]) else None {
      if HashCode(k, |bs|) != h {
        assert bs'[HashCode(k, |bs'|)] == bs[HashCode(k, |bs|)];
      }
    }
  }

  /** `bucket[i] = [key, value]`: only the value stored for that key changes. */
  lemma BucketOverwrite<V>(b: seq<Entry<V>>, i: nat, value: V)
    requires DistinctKeys(b) && i < |b|
    ensures var b' := b[i := Entry(b[i].key, value)];
      DistinctKeys(b') &&
      (forall e :: e in b' ==> e in b || e == Entry(b[i].key, value)) &&
      (forall k :: Lookup(b', k) == if k == b[i].key then Some(value) else Lookup(b, k))
  {
    var key := b[i].key;
    var b' := b[i := Entry(key, value)];
    assert forall p :: 0 <= p < |b'| ==> b'[p].key == b[p].key;
    forall e | e in b' ensures e in b || e == Entry(key, value) {
      var p :| 0 <= p < |b'| && b'[p] == e;
      if p != i {
        assert b[p] == e;
      }
    }
    forall k ensures Lookup(b', k) == if k == key then Some(value) else Lookup(b, k) {
      if k == key {
        LookupAt(b', k, i);
      } else if p :| 0 <= p < |b| && b[p].key == k {
        LookupAt(b, k, p);
        LookupAt(b', k, p);
      } else {
        LookupAbsent(b, k);
        LookupAbsent(b', k);
      }
    }
  }

  /** `bucket.push([key, value])` for a key the bucket lacks. */
  lemma BucketAppend<V>(b: seq<Entry<V>>, key: string, value: V)
    requires DistinctKeys(b)
    requires forall j :: 0 <= j < |b| ==> b[j].key != key
    ensures var b' := b + [Entry(key, value)];
      DistinctKeys(b') &&
      (forall e :: e in b' ==> e in b || e == Entry(key, value)) &&
      (forall k :: Lookup(b', k) == if k == key then Some(value) else Lookup(b, k))
  {
    var b' := b + [Entry(key, value)];
    forall k ensures Lookup(b', k) == if k == key then Some(value) else Lookup(b, k) {
      if k == key {
        LookupAt(b', k, |b|);
      } else if p :| 0 <= p < |b| && b[p].key == k {
        LookupAt(b, k, p);
        LookupAt(b', k, p);
      } else {
        LookupAbsent(b, k);
        LookupAbsent(b', k);
      }
    }
  }

  /** `bucket.splice(i, 1)`: the key of pair `i` is gone, nothing else moves
      out. */
  lemma BucketSplice<V>(b: seq<Entry<V>>, i: nat)
    requires DistinctKeys(b) && i < |b|
    ensures var b' := b[..i] + b[i + 1..];
      DistinctKeys(b') &&
      (forall e :: e in b' ==> e in b) &&
      (forall k :: Lookup(b', k) == if k == b[i].key then None else Lookup(b, k))
  {
    var key := b[i].key;
    var b' := b[..i] + b[i + 1..];
    SpliceIndex(b, i);
    SpliceDistinct(b, i);
    forall e | e in b' ensures e in b {
      var p :| 0 <= p < |b'| && b'[p] == e;
      assert b[if p < i then p else p + 1] == e;
    }
    forall k ensures Lookup(b', k) == if k == key then None else Lookup(b, k) {
      SpliceLookup(b, i, k);
    }
  }

  /** Position `p` of the spliced bucket holds the pair that was at `p`
      before the removed position and at `p + 1` after it. */
  lemma SpliceIndex<T>(b: seq<T>, i: nat)
    requires i < |b|
    ensures |b[..i] + b[i + 1..]| == |b| - 1
    ensures forall p :: 0 <= p < |b| - 1 ==>
      (b[..i] + b[i + 1..])[p] == if p < i then b[p] else b[p + 1]
  {
  }

  lemma SpliceDistinct<V>(b: seq<Entry<V>>, i: nat)
    requires DistinctKeys(b) && i < |b|
    ensures DistinctKeys(b[..i] + b[i + 1..])
  {
    var b' := b[..i] + b[i + 1..];
    SpliceIndex(b, i);
    forall p, q | 0 <= p < q < |b'| ensures b'[p].key != b'[q].key {
      var p', q' := if p < i then p else p + 1, if q < i then q else q + 1;
      assert b'[p] == b[p'] && b'[q] == b[q'];
    }
  }

  lemma SpliceLookup<V>(b: seq<Entry<V>>, i: nat, k: string)
    requires DistinctKeys(b) && i < |b|
    ensures Lookup(b[..i] + b[i + 1..], k) == if k == b[i].key then None else Lookup(b, k)
  {
    if k == b[i].key {
      SpliceLookupRemoved(b, i);
    } else if p :| 0 <= p < |b| && b[p].key == k {
      SpliceLookupKept(b, i, p);
    } else {
      SpliceLookupMissing(b, i, k);
    }
  }

  /** After the splice the removed key is found nowhere. */
  lemma SpliceLookupRemoved<V>(b: seq<Entry<V>>, i: nat)
    requires DistinctKeys(b) && i < |b|
    ensures Lookup(b[..i] + b[i + 1..], b[i].key) == None
  {
    SpliceIndex(b, i);
    LookupAbsent(b[..i] + b[i + 1..], b[i].key);
  }

  /** Any other key of the bucket keeps its value after the splice. */
  lemma SpliceLookupKept<V>(b: seq<Entry<V>>, i: nat, p: nat)
    requires DistinctKeys(b) && i < |b| && p < |b| && p != i
    ensures Lookup(b[..i] + b[i + 1..], b[p].key) == Some(b[p].value)
    ensures Lookup(b, b[p].key) == Some(b[p].value)
  {
    var b' := b[..i] + b[i + 1..];
    LookupAt(b, b[p].key, p);
    SpliceIndex(b, i);
    SpliceDistinct(b, i);
    LookupAt(b', b[p].key, if p < i then p else p - 1);
  }

  /** A key missing from the bucket is missing after the splice too. */
  lemma SpliceLookupMissing<V>(b: seq<Entry<V>>, i: nat, k: string)
    requires i < |b|
    requires forall p :: 0 <= p < |b| ==> b[p].key != k
    ensures Lookup(b, k) == None && Lookup(b[..i] + b[i + 1..], k) == None
  {
    SpliceIndex(b, i);
    LookupAbsent(b, k);
    LookupAbsent(b[..i] + b[i + 1..], k);
  }

  /** `bucket[i] = [key, value]` on the pair holding `key`. */
  lemma TableOverwrite<V>(bs: seq<seq<Entry<V>>>, m: map<string, V>, key: string, value: V, h: nat, i: nat)
    requires Table(bs, m) && h == HashCode(key, |bs|)
    requires i < |bs[h]| && bs[h][i].key == key
    ensures key in m
    ensures Table(bs[h := bs[h][i := Entry(key, value)]], m[key := value])
    ensures |Flatten(bs[h := bs[h][i := Entry(key, value)]])| == |Flatten(bs)|
  {
    var b := bs[h];
    LookupAt(b, key, i);
    BucketOverwrite(b, i, value);
    TableUpdate(bs, m, h, b[i := Entry(key, value)], m[key := value]);
    FlattenUpdate(bs, h, b[i := Entry(key, value)]);
  }

  /** `bucket.push([key, value])` for a key absent from its bucket. */
  lemma TableAppend<V>(bs: seq<seq<Entry<V>>>, m: map<string, V>, key: string, value: V, h: nat)
    requires Table(bs, m) && h == HashCode(key, |bs|)
    requires forall j :: 0 <= j < |bs[h]| ==> bs[h][j].key != key
    ensures key !in m
    ensures Table(bs[h := bs[h] + [Entry(key, value)]], m[key := value])
    ensures |Flatten(bs[h := bs[h] + [Entry(key, value)]])| == |Flatten(bs)| + 1
  {
    var b := bs[h];
    LookupAbsent(b, key);
    BucketAppend(b, key, value);
    TableUpdate(bs, m, h, b + [Entry(key, value)], m[key := value]);
    FlattenUpdate(bs, h, b + [Entry(key, value)]);
  }

  /** `bucket.splice(i, 1)` on the pair holding `key`. */
  lemma TableRemove<V>(bs: seq<seq<Entry<V>>>, m: map<string, V>, key: string, h: nat, i: nat)
    requires Table(bs, m) && h == HashCode(key, |bs|)
    requires i < |bs[h]| && bs[h][i].key == key
    ensures key in m
    ensures Table(bs[h := bs[h][..i] + bs[h][i + 1..]], m - {key})
    ensures |Flatten(bs[h := bs[h][..i] + bs[h][i + 1..]])| + 1 == |Flatten(bs)|
    ensures |m - {key}| + 1 == |m|
  {
    var b := bs[h];
    LookupAt(b, key, i);
    BucketSplice(b, i);
    TableUpdate(bs, m, h, b[..i] + b[i + 1..], m - {key});
    FlattenUpdate(bs, h, b[..i] + b[i + 1..]);
  }

  // ---------------------------------------------------------------------
  // Load factor arithmetic
  // ---------------------------------------------------------------------

  /** `a * b` as repeated addition. The load-factor comparisons are stated
      with it, so that facts about these products come from the lemmas below
      rather than from nonlinear arithmetic. */
  function Mul(a: nat, b: nat): nat {
    if a == 0 then 0 else b + Mul(a - 1, b)
  }

  lemma {:induction false} MulIsProduct(a: nat, b: nat)
    ensures Mul(a, b) == a * b
  {
    if a > 0 {
      MulIsProduct(a - 1, b);
    }
  }

  lemma {:induction false} MulMonotone(a: nat, b: nat, c: nat)
    requires a <= b
    ensures Mul(a, c) <= Mul(b, c)
    decreases b
  {
    if a < b {
      MulMonotone(a, b - 1, c);
    }
  }

  lemma {:induction false} MulDouble(a: nat, n: nat)
    ensures Mul(a, 2 * n) == 2 * Mul(a, n)
  {
    if a > 0 {
      MulDouble(a - 1, n);
    }
  }

  /** One doubling brings the ratio back under the load factor: before the
      insert `s - 1` entries were within it (`(s - 1) * den <= num * n`), and
      `loadFactor * capacity >= 1/2` (`den <= 2 * num * n`). */
  lemma GrowthRestoresRatio(s: nat, n: nat, num: nat, den: nat)
    requires s > 0
    requires Mul(s - 1, den) <= Mul(num, n)
    requires den <= 2 * Mul(num, n)
    ensures Mul(s, den) <= Mul(num, 2 * n)
    ensures den <= 2 * Mul(num, 2 * n)
  {
    MulDouble(num, n);
    if s > 1 {
      assert Mul(s - 1, den) == den + Mul(s - 2, den);
    }
  }

  // ---------------------------------------------------------------------
  // The class
  // ---------------------------------------------------------------------

  class HashMap<V> {
    var buckets: array<seq<Entry<V>>>
    var size: nat
    /** `loadFactor` as the fraction `loadNum / loadDen`. */
    const loadNum: nat
    const loadDen: nat
    /** The key/value map the buckets represent. */
    ghost var Contents: map<string, V>

    /** The buckets represent `Contents` and `size` counts their pairs. */
    ghost predicate Wf()
      reads this, buckets
    {
      Table(buckets[..], Contents) &&
      size == |Contents| && size == |Flatten(buckets[..])|
    }

    /** Between calls, also `size / capacity <= loadFactor`, and the load
        factor is large enough for one doubling to restore that. The products
        are written with `Mul`, which `MulIsProduct` shows equal to `*`. */
    ghost predicate Valid()
      reads this, buckets
    {
      Wf() && 0 < loadNum && 0 < loadDen &&
      loadDen <= 2 * Mul(loadNum, buckets.Length) &&
      Mul(size, loadDen) <= Mul(loadNum, buckets.Length)
    }

    /** `new HashMap(initialCapacity, loadFactor)`: empty buckets. */
    constructor (initialCapacity: nat, loadNum: nat, loadDen: nat)
      requires 0 < initialCapacity && 0 < loadNum && 0 < loadDen
      requires loadDen <= 2 * loadNum * initialCapacity
      ensures Valid() && fresh(buckets)
      ensures Contents == map[] && buckets.Length == initialCapacity
      ensures this.loadNum == loadNum && this.loadDen == loadDen
    {
      buckets := new seq<Entry<V>>[initialCapacity](_ => []);
      size := 0;
      this.loadNum := loadNum;
      this.loadDen := loadDen;
      Contents := map[];
      new;
      TableEmpty(buckets[..]);
      MulIsProduct(loadNum, initialCapacity);
    }

    /** `hash(key)`. */
    method Hash(key: string) returns (h: nat)
      requires buckets.Length > 0
      ensures h == HashCode(key, buckets.Length)
      ensures h < buckets.Length
    {
      h := 0;
      for i := 0 to |key|
        invariant h == HashCode(key[..i], buckets.Length)
      {
        assert key[..i + 1][..i] == key[..i];
        h := (Prime * h + key[i] as int) % buckets.Length;
      }
      assert key[..|key|] == key;
    }

    /** The body of `set` up to its growth test: overwrite the pair holding
        `key`, or append a new pair and count it. */
    method Put(key: string, value: V) returns (added: bool)
      requires Wf()
      modifies buckets, this`size, this`Contents
      ensures Wf()
      ensures added == (key !in old(Contents))
      ensures Contents == old(Contents)[key := value]
    {
      var h := Hash(key);
      var bucket := buckets[h];
      var i := IndexOfKey(bucket, key);
      if i >= 0 {
        TableOverwrite(buckets[..], Contents, key, value, h, i);
        buckets[h] := bucket[i := Entry(key, value)];
        Contents := Contents[key := value];
        added := false;
      } else {
        TableAppend(buckets[..], Contents, key, value, h);
        buckets[h] := bucket + [Entry(key, value)];
        size := size + 1;
        Contents := Contents[key := value];
        added := true;
      }
    }

    /** `set(key, value)`: store the pair; when it added one and the ratio
        now exceeds the load factor, double the capacity. */
    method Set(key: string, value: V)
      requires Valid()
      modifies this, buckets
      ensures Valid() && (buckets == old(buckets) || fresh(buckets))
      ensures Contents == old(Contents)[key := value]
      ensures size == old(size) + if key in old(Contents) then 0 else 1
      ensures buckets.Length ==
        if key !in old(Contents) && Mul(old(size) + 1, loadDen) > Mul(loadNum, old(buckets.Length))
        then 2 * old(buckets.Length) else old(buckets.Length)
    {
      var added := Put(key, value);
      if added && Mul(size, loadDen) > Mul(loadNum, buckets.Length) {
        GrowthRestoresRatio(size, buckets.Length, loadNum, loadDen);
        Resize(2 * buckets.Length);
      } else if !added {
        assert size == old(size);
      }
    }

    /** `get(key)`. */
    method Get(key: string) returns (r: Option<V>)
      requires Valid()
      ensures r == if key in Contents then Some(Contents[key]) else None
    {
      var h := Hash(key);
      var i := IndexOfKey(buckets[h], key);
      r := if i < 0 then None else Some(buckets[h][i].value);
    }

    /** `has(key)`. */
    method Has(key: string) returns (b: bool)
      requires Valid()
      ensures b == (key in Contents)
    {
      var h := Hash(key);
      var i := IndexOfKey(buckets[h], key);
      b := i >= 0;
    }

    /** `remove(key)`: splice out the pair holding `key`, if any. */
    method Remove(key: string) returns (removed: bool)
      requires Valid()
      modifies buckets, this`size, this`Contents
      ensures Valid()
      ensures removed == (key in old(Contents))
      ensures Contents == old(Contents) - {key}
      ensures size == old(size) - if removed then 1 else 0
      ensures !removed ==> buckets[..] == old(buckets[..])
    {
      var h := Hash(key);
      var bucket := buckets[h];
      var i := IndexOfKey(bucket, key);
      if i >= 0 {
        TableRemove(buckets[..], Contents, key, h, i);
        MulMonotone(size - 1, size, loadDen);
        buckets[h] := bucket[..i] + bucket[i + 1..];
        size := size - 1;
        Contents := Contents - {key};
        removed := true;
      } else {
        assert Contents - {key} == Contents;
        removed := false;
      }
    }

    /** `length()`. */
    method Length() returns (n: nat)
      requires Valid()
      ensures n == |Contents|
    {
      n := size;
    }

    /** `clear()`: fresh empty buckets, same capacity. */
    method Clear()
      requires Valid()
      modifies this
      ensures Valid() && fresh(buckets)
      ensures Contents == map[] && size == 0
      ensures buckets.Length == old(buckets.Length)
    {
      var capacity := buckets.Length;
      buckets := new seq<Entry<V>>[capacity](_ => []);
      size := 0;
      Contents := map[];
      TableEmpty(buckets[..]);
    }

    /** `entries()`: all pairs, bucket after bucket. */
    method Entries() returns (r: seq<Entry<V>>)
      requires Valid()
      ensures r == Flatten(buckets[..])
      ensures |r| == |Contents| && DistinctKeys(r)
      ensures forall e :: e in r <==> e.key in Contents && Contents[e.key] == e.value
    {
      r := [];
      for i := 0 to buckets.Length
        invariant r == Flatten(buckets[..i])
      {
        var bucket := buckets[i];
        for j := 0 to |bucket|
          invariant r == Flatten(buckets[..i]) + bucket[..j]
        {
          assert bucket[..j + 1] == bucket[..j] + [bucket[j]];
          r := r + [bucket[j]];
        }
        assert buckets[..i + 1][..i] == buckets[..i];
        assert bucket[..|bucket|] == bucket;
      }
      assert buckets[..buckets.Length] == buckets[..];
      TableEntries(buckets[..], Contents);
    }

    /** `keys()`: the keys of `entries()`, in the same order. */
    method Keys() returns (r: seq<string>)
      requires Valid()
      ensures r == KeysOf(Flatten(buckets[..]))
      ensures |r| == |Contents|
      ensures forall i, j :: 0 <= i < j < |r| ==> r[i] != r[j]
      ensures forall k :: k in r <==> k in Contents
    {
      r := [];
      ghost var es: seq<Entry<V>> := [];
      for i := 0 to buckets.Length
        invariant es == Flatten(buckets[..i])
        invariant |r| == |es| && forall p :: 0 <= p < |r| ==> r[p] == es[p].key
      {
        var bucket := buckets[i];
        for j := 0 to |bucket|
          invariant es == Flatten(buckets[..i]) + bucket[..j]
          invariant |r| == |es| && forall p :: 0 <= p < |r| ==> r[p] == es[p].key
        {
          assert bucket[..j + 1] == bucket[..j] + [bucket[j]];
          es, r := es + [bucket[j]], r + [bucket[j].key];
        }
        assert buckets[..i + 1][..i] == buckets[..i];
        assert bucket[..|bucket|] == bucket;
      }
      assert buckets[..buckets.Length] == buckets[..];
      assert r == KeysOf(es);
      TableKeys(buckets[..], Contents);
    }

    /** `values()`: the values of `entries()`, in the same order. */
    method Values() returns (r: seq<V>)
      requires Valid()
      ensures r == ValuesOf(Flatten(buckets[..]))
      ensures |r| == |Contents|
      ensures forall k :: k in Contents ==> Contents[k] in r
      ensures forall i :: 0 <= i < |r| ==> exists k :: k in Contents && Contents[k] == r[i]
    {
      r := [];
      ghost var es: seq<Entry<V>> := [];
      for i := 0 to buckets.Length
        invariant es == Flatten(buckets[..i])
        invariant |r| == |es| && forall p :: 0 <= p < |r| ==> r[p] == es[p].value
      {
        var bucket := buckets[i];
        for j := 0 to |bucket|
          invariant es == Flatten(buckets[..i]) + bucket[..j]
          invariant |r| == |es| && forall p :: 0 <= p < |r| ==> r[p] == es[p].value
        {
          assert bucket[..j + 1] == bucket[..j] + [bucket[j]];
          es, r := es + [bucket[j]], r + [bucket[j].value];
        }
        assert buckets[..i + 1][..i] == buckets[..i];
        assert bucket[..|bucket|] == bucket;
      }
      assert buckets[..buckets.Length] == buckets[..];
      assert r == ValuesOf(es);
      TableValues(buckets[..], Contents);
    }

    /** `resize(newCapacity)`: fresh empty buckets, then every old pair is
        stored again, hashed for the new capacity. */
    method Resize(newCapacity: nat)
      requires Wf() && newCapacity > 0
      requires Mul(size, loadDen) <= Mul(loadNum, newCapacity)
      modifies this
      ensures Wf() && fresh(buckets)
      ensures buckets.Length == newCapacity
      ensures Contents == old(Contents) && size == old(size)
    {
      var oldBuckets := buckets[..];
      ghost var oldContents := Contents;
      TableEntries(oldBuckets, oldContents);
      buckets := new seq<Entry<V>>[newCapacity](_ => []);
      size := 0;
      Contents := map[];
      TableEmpty(buckets[..]);
      ghost var done: seq<Entry<V>> := [];
      for i := 0 to |oldBuckets|
        invariant Wf() && fresh(buckets) && buckets.Length == newCapacity
        invariant done == Flatten(oldBuckets[..i])
        invariant forall k :: k in Contents ==> k in oldContents && Contents[k] == oldContents[k]
        invariant forall e :: e in done ==> e.key in Contents
      {
        var bucket := oldBuckets[i];
        forall e: Entry<V> | e in bucket ensures e.key in oldContents && oldContents[e.key] == e.value {
          TableEntryAgrees(oldBuckets, oldContents, i, e);
        }
        Rehash(bucket, oldContents);
        assert oldBuckets[..i + 1][..i] == oldBuckets[..i];
        done := done + bucket;
      }
      assert oldBuckets[..|oldBuckets|] == oldBuckets;
      forall k | k in oldContents ensures k in Contents {
        assert Entry(k, oldContents[k]) in done;
      }
      assert Contents == oldContents;
    }

    /** The inner loop of `resize`: every pair of one old bucket is stored
        again through `set`, whose own growth test cannot fire here because
        the pairs come from a map `target` that already fits the new
        capacity. */
    method Rehash(bucket: seq<Entry<V>>, ghost target: map<string, V>)
      requires Wf()
      requires forall e :: e in bucket ==> e.key in target && target[e.key] == e.value
      requires forall k :: k in Contents ==> k in target && Contents[k] == target[k]
      requires Mul(|target|, loadDen) <= Mul(loadNum, buckets.Length)
      modifies buckets, this`size, this`Contents
      ensures Wf()
      ensures forall k :: k in Contents ==> k in target && Contents[k] == target[k]
      ensures forall k :: k in old(Contents) ==> k in Contents
      ensures forall e :: e in bucket ==> e.key in Contents
    {
      for j := 0 to |bucket|
        invariant Wf()
        invariant forall k :: k in Contents ==> k in target && Contents[k] == target[k]
        invariant forall k :: k in old(Contents) ==> k in Contents
        invariant forall p :: 0 <= p < j ==> bucket[p].key in Contents
      {
        var e := bucket[j];
        assert e in bucket;
        var _ := Put(e.key, e.value);
        SubsetSize(Contents.Keys, target.Keys);
        MulMonotone(size, |target|, loadDen);
        assert !(Mul(size, loadDen) > Mul(loadNum, buckets.Length));
      }
    }
  }

  /** The represented map after each group of `set` calls in the usage
      example: three new keys per stage, then two overwrites and "moon". */
  function DemoAfterStage1(): map<string, string> {
    map[]["apple" := "red"]["banana" := "yellow"]["carrot" := "orange"]
  }

  function DemoAfterStage2(): map<string, string> {
    DemoAfterStage1()["dog" := "brown"]["elephant" := "gray"]["frog" := "green"]
  }

  function DemoAfterStage3(): map<string, string> {
    DemoAfterStage2()["grape" := "purple"]["hat" := "black"]["ice cream" := "white"]
  }

  function DemoAfterStage4(): map<string, string> {
    DemoAfterStage3()["jacket" := "blue"]["kite" := "pink"]["lion" := "golden"]
  }

  function DemoAfterGrowth(): map<string, string> {
    DemoAfterStage4()["apple" := "green"]["banana" := "brown"]["moon" := "silver"]
  }

  /** The twelve keys of the usage example are pairwise different, and
      "moon" is none of them. */
  lemma DemoKeysAreNew()
    ensures "banana" !in map[]["apple" := "red"]
    ensures "carrot" !in map[]["apple" := "red"]["banana" := "yellow"]
    ensures "dog" !in DemoAfterStage1()
    ensures "elephant" !in DemoAfterStage1()["dog" := "brown"]
    ensures "frog" !in DemoAfterStage1()["dog" := "brown"]["elephant" := "gray"]
    ensures "grape" !in DemoAfterStage2()
    ensures "hat" !in DemoAfterStage2()["grape" := "purple"]
    ensures "ice cream" !in DemoAfterStage2()["grape" := "purple"]["hat" := "black"]
    ensures "jacket" !in DemoAfterStage3()
    ensures "kite" !in DemoAfterStage3()["jacket" := "blue"]
    ensures "lion" !in DemoAfterStage3()["jacket" := "blue"]["kite" := "pink"]
    ensures "apple" in DemoAfterStage4()
    ensures "banana" in DemoAfterStage4()["apple" := "green"]
    ensures "moon" !in DemoAfterStage4()["apple" := "green"]["banana" := "brown"]
  {
  }

  /** The first three `set` calls of the usage example. */
  method DemoStage1(test: HashMap<string>)
    requires test.Valid() && test.loadNum == 3 && test.loadDen == 4 && test.buckets.Length == 16
    requires test.Contents == map[]
    requires test.size == 0
    modifies test, test.buckets
    ensures test.Valid() && test.buckets.Length == 16
    ensures test.buckets == old(test.buckets) || fresh(test.buckets)
    ensures test.Contents == DemoAfterStage1()
    ensures test.size == 3
  {
    DemoKeysAreNew();
    MulIsProduct(3, 16);
    MulIsProduct(1, 4);
    test.Set("apple", "red");
    MulIsProduct(2, 4);
    test.Set("banana", "yellow");
    MulIsProduct(3, 4);
    test.Set("carrot", "orange");
  }

  /** The next three `set` calls. */
  method DemoStage2(test: HashMap<string>)
    requires test.Valid() && test.loadNum == 3 && test.loadDen == 4 && test.buckets.Length == 16
    requires test.Contents == DemoAfterStage1()
    requires test.size == 3
    modifies test, test.buckets
    ensures test.Valid() && test.buckets.Length == 16
    ensures test.buckets == old(test.buckets) || fresh(test.buckets)
    ensures test.Contents == DemoAfterStage2()
    ensures test.size == 6
  {
    DemoKeysAreNew();
    MulIsProduct(3, 16);
    MulIsProduct(4, 4);
    test.Set("dog", "brown");
    MulIsProduct(5, 4);
    test.Set("elephant", "gray");
    MulIsProduct(6, 4);
    test.Set("frog", "green");
  }

  /** The next three `set` calls. */
  method DemoStage3(test: HashMap<string>)
    requires test.Valid() && test.loadNum == 3 && test.loadDen == 4 && test.buckets.Length == 16
    requires test.Contents == DemoAfterStage2()
    requires test.size == 6
    modifies test, test.buckets
    ensures test.Valid() && test.buckets.Length == 16
    ensures test.buckets == old(test.buckets) || fresh(test.buckets)
    ensures test.Contents == DemoAfterStage3()
    ensures test.size == 9
  {
    DemoKeysAreNew();
    MulIsProduct(3, 16);
    MulIsProduct(7, 4);
    test.Set("grape", "purple");
    MulIsProduct(8, 4);
    test.Set("hat", "black");
    MulIsProduct(9, 4);
    test.Set("ice cream", "white");
  }

  /** The last three new keys: twelve pairs in sixteen buckets is exactly the
      load factor 3/4, which is not above it, so nothing grows. */
  method DemoStage4(test: HashMap<string>)
    requires test.Valid() && test.loadNum == 3 && test.loadDen == 4 && test.buckets.Length == 16
    requires test.Contents == DemoAfterStage3()
    requires test.size == 9
    modifies test, test.buckets
    ensures test.Valid() && test.buckets.Length == 16
    ensures test.buckets == old(test.buckets) || fresh(test.buckets)
    ensures test.Contents == DemoAfterStage4()
    ensures test.size == 12
  {
    DemoKeysAreNew();
    MulIsProduct(3, 16);
    MulIsProduct(10, 4);
    test.Set("jacket", "blue");
    MulIsProduct(11, 4);
    test.Set("kite", "pink");
    MulIsProduct(12, 4);
    test.Set("lion", "golden");
  }

  /** The two overwrites and the thirteenth key: 13 * 4 > 3 * 16, so the
      capacity doubles to 32. */
  method DemoGrowth(test: HashMap<string>)
    requires test.Valid() && test.loadNum == 3 && test.loadDen == 4 && test.buckets.Length == 16
    requires test.Contents == DemoAfterStage4()
    requires test.size == 12
    modifies test, test.buckets
    ensures test.Valid() && test.buckets.Length == 32
    ensures test.buckets == old(test.buckets) || fresh(test.buckets)
    ensures test.Contents == DemoAfterGrowth()
    ensures test.size == 13
  {
    DemoKeysAreNew();
    MulIsProduct(3, 16);
    test.Set("apple", "green");
    test.Set("banana", "brown");
    MulIsProduct(13, 4);
    test.Set("moon", "silver");
  }

  /** The queries of the usage example after growth. */
  method DemoQueries(test: HashMap<string>) returns (apple: Option<string>, hasDog: bool,
                                                   removedFrog: bool, length: nat)
    requires test.Valid() && test.Contents == DemoAfterGrowth()
    requires test.size == 13
    modifies test, test.buckets
    ensures test.Valid() && test.buckets == old(test.buckets)
    ensures apple == Some("green") && hasDog && removedFrog && length == 12
  {
    apple := test.Get("apple");
    hasDog := test.Has("dog");
    removedFrog := test.Remove("frog");
    length := test.Length();
  }

  /** The usage example at the end of the file: twelve pairs fit the
      sixteen default buckets at load factor 3/4, two overwrites change
      nothing in size, and the thirteenth pair doubles the capacity. */
  method DemoScenario() returns (capacity: nat, apple: Option<string>, hasDog: bool,
                                 removedFrog: bool, lengthAfterRemove: nat,
                                 lengthAfterClear: nat, keys: seq<string>,
                                 values: seq<string>, entries: seq<Entry<string>>)
    ensures capacity == 32
    ensures apple == Some("green") && hasDog && removedFrog
    ensures lengthAfterRemove == 12 && lengthAfterClear == 0
    ensures keys == [] && values == [] && entries == []
  {
    var test := new HashMap<string>(16, 3, 4);
    DemoStage1(test);
    DemoStage2(test);
    DemoStage3(test);
    DemoStage4(test);
    DemoGrowth(test);
    capacity := test.buckets.Length;
    apple, hasDog, removedFrog, lengthAfterRemove := DemoQueries(test);
    test.Clear();
    lengthAfterClear := test.Length();
    keys := test.Keys();
    values := test.Values();
    entries := test.Entries();
  }
}

=== FILE: wrappers.dfy ===
/** The absent/present result shared by both data structures: `None` stands
    for the `null` that the JavaScript code returns when nothing is found. */
module Wrappers {
  datatype Option<T> = None | Some(value: T)
}
